=== FILE: README.md ===
# Asteroids game simulation in Dafny

A model of the simulation core of a small C++ Asteroids clone. The model covers:

- **Motion and wrap-around.** Every flying object moves by its velocity each frame. When boundaries are set, a coordinate that passes an edge jumps to the opposite edge.
- **Rocks.** There are three rock classes: big, medium and small. Each has its own radius, spin and fragmentation rule.
- **Bullets.** A bullet lives for 40 frames.
- **The ship.** It turns in 6-degree steps using the C++ remainder, thrusts along its heading and fires bullets. It also has a temporary invulnerability countdown.
- **The game.** It runs each frame in a fixed order:
  1. rocks, with a fresh wave of five when none are left;
  2. bullets;
  3. the ship, or its replacement;
  4. collisions;
  5. removal of the dead.

  It also keeps score and lives and turns the four input keys into ship actions.

Each class of the program becomes an immutable datatype, and each member function becomes a pure function over it. The modules follow the classes. game.cpp is split over three modules: `Sweep`, `Sieve` and `Games`. `CMath` models no file of its own; it holds the C++ remainder that the rock and ship modules share:

| module | file | models |
|---|---|---|
| `CMath` | `cmath.dfy` | the C++ integer `%`, which truncates toward zero |
| `Geometry` | `geometry.dfy` | `Point`, `Velocity` (velocity.cpp) |
| `FlyingObjects` | `flying_objects.dfy` | `FlyingObject` (flyingObject.cpp) |
| `Bullets` | `bullets.dfy` | `Bullet` (bullet.cpp, bullet.h) |
| `Rocks` | `rocks.dfy` | `Rock`, `BigRock`, `MediumRock`, `SmallRock` (rocks.cpp, rocks.h) |
| `Ships` | `ships.dfy` | `Ship` (ship.cpp, ship.h) |
| `Sweep` | `sweep.dfy` | `Game::getClosestDistance` (game.cpp) |
| `Sieve` | `sieve.dfy` | the erase-while-walking loop of `cleanupBullets` / `cleanupRocks` |
| `Games` | `games.dfy` | `Game` (game.cpp) |

The program gets several things from outside the model. Here they are parameters:

- **`Trig`.** A pair of functions standing for cosine and sine in degrees. `FromAngularSpeed` is the only place that uses them.
- **`Metric`.** The distance between two points. The source gets it by subtracting one `Point` from another.
- **`seq<Spawn>`.** Exactly five draws from the random source, one point and one heading per rock of a new wave.
- **`Input`.** The four booleans `handleInput` polls.

`setBoundaries` writes static variables shared by every object. Here the boundaries are an explicit `Bounds` value passed to each advance.

The model follows game.cpp in two places where a reader might expect otherwise:

- **The collision pass skips nothing.** It tests every bullet, dead or alive, against the rocks in list order, dead ones included, until that bullet's first HIT (game.cpp:280 returns there). A dead bullet can still score. A rock killed earlier in the same frame can be hit again and yields its fragments again. `DeadBulletStillScores` and `DeadRockStillFragments` state both.
- **An invulnerable ship still costs a life.** A ship that touches a rock counts as a HIT even while it is invulnerable, so a life is lost although `Ship::kill` did nothing. `InvulnerableShipStillLosesLife` states this.

The wrap rule compares strictly on all four edges: a coordinate exactly on an edge stays put. flyingObject.cpp:107-123 treats the four edges alike.

## Model

| member | source | states |
|---|---|---|
| CMath.CRem | asteroids/ship.cpp:94-106 | The C++ remainder of `a` by a positive `m`. It lies strictly between `-m` and `m`, has the sign of `a`, and agrees with the mathematical residue modulo `m`. These three facts pin it down, so it can be negative where Dafny's `%` cannot. |
| Geometry.Still | asteroids/velocity.cpp:31-35 | The default velocity is (0, 0). |
| Geometry.Plus | asteroids/velocity.cpp:108-111 | The zero velocity is the identity of `+` on either side. |
| Geometry.Move | asteroids/flyingObject.cpp:99 | A point stays where it is exactly when the velocity it moves by is zero. |
| Geometry.FromAngularSpeed | asteroids/velocity.cpp:19-25 | At speed 0 the velocity is (0, 0), whatever cosine and sine return. |
| Geometry.AddAssign | asteroids/velocity.cpp:97-102 | After `+=`, the left side equals `lhs + rhs`, the component-wise sum. |
| Geometry.AddVelocity | asteroids/velocity.cpp:87-91 | `addVelocity` has the same effect as `+=`. |
| Geometry.PlusCommutes | asteroids/velocity.cpp:108-111 | Velocity addition is commutative. |
| Geometry.PlusAssociates | asteroids/velocity.cpp:108-111 | Velocity addition is associative. |
| Geometry.AngularSpeedsAdd | asteroids/velocity.cpp:19-25 | Two velocities along the same heading add up to one velocity at the summed speed. |
| FlyingObjects.SetBoundaries | asteroids/flyingObject.cpp:23-28 | After `setBoundaries`, objects are bounded, with exactly the given top-left and bottom-right corners. |
| FlyingObjects.New | asteroids/flyingObject.cpp:34-36 | A new object is alive, stands at the origin and is at rest: its velocity is the zero velocity that `Velocity()` builds (velocity.cpp:31-35). |
| FlyingObjects.Kill | asteroids/flyingObject.cpp:87-90 | `kill` leaves the object dead and changes neither position nor velocity. |
| FlyingObjects.KillIsIdempotent | asteroids/flyingObject.cpp:87-90 | Killing twice is the same as killing once. |
| FlyingObjects.Accelerate | asteroids/flyingObject.cpp:131-135 | `+=` adds to the velocity and leaves position and the alive flag unchanged. |
| FlyingObjects.Advance | asteroids/flyingObject.cpp:97-124 | `advance` keeps velocity and alive. Without boundaries it moves the point by the velocity. With well-formed boundaries the result lies inside the rectangle. A move that stays inside is not wrapped. Each axis jumps to the opposite edge when it goes past an edge: x below the left edge goes to the right edge, x beyond the right edge goes to the left edge, and likewise for y between bottom and top. |
| FlyingObjects.AxesWrapIndependently | asteroids/flyingObject.cpp:107-123 | Where x lands depends only on the moved x, and where y lands depends only on the moved y. |
| FlyingObjects.RightEdgeWrapsToLeftEdge | asteroids/flyingObject.cpp:111-114 | An object on the right edge moving right reappears on the left edge at the same height. It jumps to the edge itself and does not keep the overshoot. |
| FlyingObjects.EdgeIsNotWrapped | asteroids/flyingObject.cpp:107-123 | A move that lands exactly on a corner of the field is not wrapped, because the comparisons are strict. |
| Bullets.New | asteroids/bullet.cpp:26-29 | A new bullet is alive with a life of 40. |
| Bullets.Fire | asteroids/bullet.cpp:36-40 | `fire` places the bullet at the given point with velocity `FromAngularSpeed(angle, 5)`. It leaves life and the alive flag unchanged. |
| Bullets.Kill | asteroids/flyingObject.cpp:87-90 | Killing a bullet leaves it dead with its life unchanged. |
| Bullets.Advance | asteroids/bullet.cpp:47-54 | The bullet moves by the base wrap rule and keeps its velocity. Life goes down by one only while it is positive, so it never becomes negative. The bullet dies exactly on the step that takes life from 1 to 0. |
| Bullets.CountdownKillsOnTime | asteroids/bullet.cpp:47-54 | A live bullet with `n` frames of life is alive after each of the first `n - 1` advances, with life `n - k` after `k` of them, and is dead after the `n`-th. |
| Bullets.FreshBulletLivesFortyFrames | asteroids/bullet.cpp:26-54 | A fresh bullet is alive after 39 advances and dead after the 40th. |
| Rocks.Radius | asteroids/rocks.h:71-117 | Each class's radius lies between the small radius 4 and the big radius 16; the smallest radius belongs exactly to small rocks and the largest exactly to big rocks. |
| Rocks.Spin | asteroids/rocks.h:74-120 | Each class's spin lies between the big spin 2 and the small spin 10; the slowest spin belongs exactly to big rocks and the fastest exactly to small rocks. |
| Rocks.SizeTable | asteroids/rocks.h:16-22 | Every radius and spin is positive. A bigger class has a strictly larger radius and a strictly smaller spin. |
| Rocks.Launched | asteroids/rocks.cpp:34-37 | A rock built from a point and (dx, dy) is alive with rotation 0, at that point, with exactly that velocity. |
| Rocks.Launch | asteroids/rocks.cpp:29-48 | A rock built from a point and an angle is launched along that angle at the default rock speed of 1. |
| Rocks.Fragments | asteroids/rocks.cpp:89-149 | Every fragment is of a strictly smaller class than its parent, sits at the parent's position, is alive and has rotation 0. |
| Rocks.FragmentTable | asteroids/rocks.cpp:89-149 | The exact ordered fragment lists. Big gives Medium(dx, dy+1), Medium(dx, dy-1), Small(dx+2, dy). Medium gives Small(dx+3, dy), Small(dx-3, dy). Small gives nothing. |
| Rocks.Kill | asteroids/flyingObject.cpp:87-90 | A killed rock is dead and otherwise unchanged. |
| Rocks.Hit | asteroids/rocks.cpp:66-70 | `hit` leaves the rock dead and returns exactly that rock's fragment list. |
| Rocks.FragmentsIgnoreAlive | asteroids/rocks.cpp:66-70 | The fragments do not depend on whether the rock is alive, so it does not matter that `hit` kills before fragmenting. |
| Rocks.DebrisCounts | asteroids/rocks.cpp:89-149 | Repeated fragmentation terminates. Clearing a big rock with everything it breaks into takes 8 hits, a medium rock 3, a small rock 1. |
| Rocks.Advance | asteroids/rocks.cpp:76-80 | The rock moves by the base wrap rule. Its rotation becomes the C++ truncating remainder of `rotation + spin` by 360 (`CRem`). That value lies in (-360, 360), is congruent to `rotation + spin`, and is non-negative when the old rotation was. |
| Rocks.RotationAfterAdvances | asteroids/rocks.cpp:76-80 | A rock starting at rotation 0 has rotation `(n * spin) mod 360` after `n` advances, which lies in [0, 360). |
| Ships.New | asteroids/ship.cpp:24-28 | A new ship is alive, has rotation 90, is not invulnerable, has timer 0 and shows no thrust. It satisfies the invulnerability invariant. Its body is the default flying object, so it starts at the origin and at rest. |
| Ships.SetInvulnerable | asteroids/ship.cpp:135-142 | A negative duration is clamped to 0. The flag is set exactly when the timer is positive, so the invariant holds afterwards. Nothing else changes. |
| Ships.Advance | asteroids/ship.cpp:35-66 | The ship moves by the base wrap rule and keeps its rotation. The invariant `invulnerable <==> timer > 0` is preserved. A positive timer goes down by one. `drawThrust` becomes the old `thrusted`, and `thrusted` is cleared. |
| Ships.InvulnerabilityWindow | asteroids/ship.cpp:41-49 | After `setInvulnerable(n)` with `n > 0`, the ship is invulnerable for `n - 1` further advances, with timer `n - k` after `k` of them. It is vulnerable after the `n`-th. |
| Ships.Kill | asteroids/ship.cpp:123-129 | `kill` changes nothing while the ship is invulnerable. Otherwise it is the base kill, and the ship becomes dead. |
| Ships.KillAfterWindow | asteroids/ship.cpp:123-129 | Once an invulnerability window of `n` frames has run out, `kill` succeeds. |
| Ships.RotateRight | asteroids/ship.cpp:94-97 | The rotation becomes the C++ remainder of `rotation - 6` by 360. It stays in (-360, 360), and the heading modulo 360 drops by 6. Nothing else changes. |
| Ships.RotateLeft | asteroids/ship.cpp:103-106 | The rotation becomes the C++ remainder of `rotation + 6` by 360. It stays in (-360, 360), and the heading modulo 360 rises by 6. Nothing else changes. |
| Ships.TurnsCancel | asteroids/ship.cpp:94-106 | A left turn followed by a right turn, or the reverse, restores the heading. |
| Ships.RotationCanGoNegative | asteroids/ship.cpp:94-97 | Turning right from rotation 0 gives -6, not 354. |
| Ships.Thrust | asteroids/ship.cpp:112-116 | `thrust` adds `FromAngularSpeed(rotation, 0.5)` to the velocity and sets `thrusted`. Nothing else changes. |
| Ships.ThrustIsDrawnOnce | asteroids/ship.cpp:54-65 | A thrust shows on the draw after the next advance and is gone again after the advance that follows. |
| Ships.Fire | asteroids/ship.cpp:148-154 | The bullet is alive at the ship's position with life 40. Its velocity is `FromAngularSpeed(rotation, 5)` plus the ship's own velocity. |
| Sweep.SweepLength | asteroids/game.cpp:429-432 | `dMax` is at least 0.1 and at least every velocity component's absolute value. It equals 0.1 or one of those absolute values. |
| Sweep.LastStep | asteroids/game.cpp:435 | The last sample index is the largest whole number not above `dMax`. |
| Sweep.Retreat | asteroids/game.cpp:437-440 | Step 0 is the object's current position. After `dMax` steps of `1/dMax` the object stands one whole velocity back: moving from there by the velocity returns it to its current position. |
| Sweep.RetreatSteps | asteroids/game.cpp:437-440 | The samples are evenly spaced: sample `i` lies exactly `1/dMax` of the velocity behind sample `i - 1`, in both coordinates, for every `i > 0`. |
| Sweep.Sample | asteroids/game.cpp:437-442 | Sample 0 is the distance between the two current positions. |
| Sweep.MinSample | asteroids/game.cpp:434-443 | The running minimum over samples `0..n` is at most FLT_MAX and at most every sample. It equals FLT_MAX or one of the samples. |
| Sweep.ClosestDistance | asteroids/game.cpp:426-446 | The closest distance is at most the distance between the current positions, so at least one sample is taken. |
| Sweep.SweptContactIsSeen | asteroids/game.cpp:426-446 | If any sample of the frame comes within a reach, so does the closest distance. |
| Sweep.GetClosestDistance | asteroids/game.cpp:426-446 | The loop computes `ClosestDistance`. Its result is at most the distance between the current positions and is FLT_MAX or one of the sampled distances. |
| Sieve.Filter | asteroids/game.cpp:112-126 | The survivors are no more than the original entries, and every survivor is kept. |
| Sieve.FilterMembers | asteroids/game.cpp:112-126 | A value survives exactly when it was in the list and is kept. |
| Sieve.FilterCounts | asteroids/game.cpp:132-155 | Every kept value survives as many times as it occurred, and a dropped value not at all. |
| Sieve.FilterAppend | asteroids/game.cpp:132-155 | Filtering distributes over concatenation, so survivors keep their relative order. |
| Sieve.FilterKeepsAll | asteroids/game.cpp:112-126 | A list whose entries are all kept is returned unchanged. |
| Sieve.FilterShrinks | asteroids/game.cpp:112-126 | The list gets shorter exactly when some entry is dropped. |
| Sieve.EraseDead | asteroids/game.cpp:112-126 | The walk that steps over live entries and erases dead ones in place leaves exactly the filtered list. |
| Games.InitializeRocks | asteroids/game.cpp:161-170 | Five big rocks are appended after the existing ones, one per spawn point and heading, in spawn order. |
| Games.NewGame | asteroids/game.cpp:40-51 | A new game is valid and bounded by the given corners. It has score 0, 3 lives, no bullets and exactly 5 big rocks at rotation 0 on the spawn points. The ship is alive, has rotation 90 and is invulnerable with timer 100. The rocks are exactly the wave `InitializeRocks` launches from no rocks, so each moves along its spawn angle at speed 1. The ship is exactly a default ship made invulnerable for 100 frames: at the origin, at rest, not thrusting. |
| Games.AdvanceEach | asteroids/game.cpp:183-188 | Every rock in the list is advanced, and the list keeps its length. |
| Games.AdvanceRocks | asteroids/game.cpp:176-189 | Five big rocks are added exactly when the list was empty. Then every rock, dead or alive, is advanced, and rotations stay in [0, 360). |
| Games.AdvanceBullets | asteroids/game.cpp:195-200 | Every bullet, dead or alive, is advanced in place. |
| Games.AdvanceShip | asteroids/game.cpp:82-91 | A live ship is advanced. A dead ship is replaced by a fresh ship invulnerable for 100 frames exactly when lives remain, and otherwise stays dead. |
| Games.Radius | asteroids/game.cpp:260 | The radius of every object the game checks is positive. |
| Games.Kill | asteroids/game.cpp:263 | `obj.kill()` keeps the kind of object, its position and its velocity. Afterwards the object is dead exactly when it is a bullet, a ship that is not invulnerable, or was dead already. An invulnerable ship is left untouched. |
| Games.Collides | asteroids/game.cpp:258-260 | Objects that touch at the end of the frame (distance at most the sum of the radii) always collide, whatever the sweep. |
| Games.FirstHit | asteroids/game.cpp:240-286 | The walk stops at the first rock in list order that the object collides with, or at the end of the list. |
| Games.Splice | asteroids/game.cpp:263-277 | The fragments of the hit rock go immediately before it. The hit rock stays in place, dead, and every other rock is untouched. |
| Games.HandleCollisions | asteroids/game.cpp:236-289 | HIT exactly when some rock collides. On HIT the object is killed and the first colliding rock is hit, with its fragments spliced before it. On MISS nothing changes. |
| Games.HandleCollisionsKeepsRotations | asteroids/game.cpp:263-277 | A check keeps every rock's rotation in [0, 360): fragments start at 0 and the hit rock keeps its own. |
| Games.SweptContactIsHit | asteroids/game.cpp:258-260 | The swept test decides the collision. If any sample of the frame brings the object within the two radii of rock `j`, the collision check gives a HIT, even when the two end the frame apart. |
| Games.BulletOutcome | asteroids/game.cpp:260-288 | A bullet is killed exactly when its collision check gives a HIT. On a MISS the bullet is returned unchanged. |
| Games.DeadRockStillFragments | asteroids/game.cpp:242-286 | A rock that is already dead is not skipped. An object touching it gets a HIT, and the rock's fragments are spliced in again before it. |
| Games.FoldShift | asteroids/game.cpp:212-217 | Checking the first bullet, then the rest starting from the rocks it left, is the same as checking all the bullets in order. |
| Games.InOrderCons | asteroids/game.cpp:212-217 | The first bullet's result followed by the rest's results, each taken in order, gives every bullet's result in order. |
| Games.Pass | asteroids/game.cpp:212-217 | For any per-bullet check, the walk from the head of the list kills exactly the bullets whose result is HIT. Result `i` is bullet `i`'s check against the rocks as bullets `0..i-1` left them, and the walk ends with the rocks as all the checks left them. |
| Games.CountHitsInOrder | asteroids/game.cpp:212-217 | Counting the HIT results of checks made in order gives the number of HITs in those checks, counted left to right. |
| Games.CollideBullets | asteroids/game.cpp:212-217 | Each bullet, dead or alive, runs `handleCollisions` in list order. Result `i` is bullet `i`'s check against the rocks exactly as bullets `0..i-1` left them. A bullet is killed exactly where its result was a HIT. The pass ends with the rocks as all the checks left them. |
| Games.FoldKeepsRocks | asteroids/game.cpp:212-217 | A run of checks, each of which never drops a rock and keeps rotations in [0, 360), keeps both properties. |
| Games.BulletPassKeepsRocks | asteroids/game.cpp:212-217 | The bullets' pass never removes rocks and keeps every rotation in [0, 360). |
| Games.DeadBulletStillScores | asteroids/game.cpp:212-217 | A dead bullet touching a rock still counts as a HIT. |
| Games.CollideShip | asteroids/game.cpp:222-226 | A dead ship is not checked. A live ship is checked once, and a life is lost exactly when the result is HIT and lives remain. Lives never drop by more than one or below zero. |
| Games.InvulnerableShipStillLosesLife | asteroids/game.cpp:224-225 | An invulnerable ship touching a rock stays unchanged, yet a life is lost. |
| Games.CleanupBullets | asteroids/game.cpp:112-126 | Only live bullets remain. No live bullet is removed, and each keeps its multiplicity. |
| Games.CleanupRocks | asteroids/game.cpp:132-155 | Only live rocks remain. No live rock is removed, and each keeps its multiplicity. |
| Games.CleanupKeepsOrder | asteroids/game.cpp:112-155 | Cleanup distributes over concatenation, so survivors keep their relative order. |
| Games.HandleAllCollisions | asteroids/game.cpp:207-229 | The bullets go first, in list order, each against the rocks as the ones before it left them, and each is killed exactly on HIT. Then the ship is checked (`CollideShip`) against the rocks as all the bullets left them. Ship, rocks and lives are exactly that check's outcome. The ship is unchanged or killed, and at most one life is lost, only while lives remain. |
| Games.Advance | asteroids/game.cpp:72-96 | A frame advances the rocks, bullets and ship, runs the collision pass on them, then cleans up. Rocks and bullets are the cleanup of the pass's lists, and ship and lives are the pass's. Every remaining rock and bullet is alive, and the bounds are unchanged. The score rises by at most one per bullet, and lives stay the same or drop by one when positive. |
| Games.FrameKeepsValid | asteroids/game.cpp:72-96 | A frame keeps the world valid: score non-negative, lives in 0..3, the ship's invariant, rotations in range, live rocks and live bullets with 1..40 frames left. |
| Games.ScoreCountsBulletHits | asteroids/game.cpp:212-217 | The new score is the old one plus the number of advanced bullets whose `handleCollisions` was a HIT. Each check is made in list order against the advanced rocks as the bullets before it left them, and the HITs are counted left to right. |
| Games.GameOverIsFinal | asteroids/game.cpp:82-91 | With the ship dead and no lives left, the ship stays dead and lives stay at 0. |
| Games.Steer | asteroids/game.cpp:300-313 | Right then left set the rotation to the C++ remainders of `rotation - 6` and then `+ 6` by 360, and the heading modulo 360 moves by +6 for left and -6 for right. Up adds `FromAngularSpeed(final rotation, 0.5)` to the velocity and sets `thrusted`; without up the velocity is unchanged. Position, alive flag, invulnerability and `drawThrust` are unchanged. |
| Games.HandleInput | asteroids/game.cpp:295-319 | Nothing happens while the ship is dead. Otherwise the ship is steered by right, left and up, and space appends a bullet fired from the steered ship. Only the ship and the bullets change. |
| Games.HeadingAfterTurns | asteroids/game.cpp:300-308 | After the turns of one frame, the heading modulo 360 has moved by +6 for left and -6 for right. |
| Games.InputKeepsValid | asteroids/game.cpp:295-319 | Handling input keeps the world valid. |

## Left out

- Drawing is not modelled, because it only produces output. This covers every `draw` method, the score and lives text and its screen locations, and the blinking of an invulnerable ship.
- Input polling through `Interface` is not modelled. `handleInput` takes the four key states as an `Input` value instead.
- `random()` and `getRandomPoint` are not modelled. A new wave takes its five points and headings as parameters. The rectangle asserts of `getRandomPoint` are therefore not modelled either.
- Cosine and sine are abstract parameters (`Trig`), because they are library calls. So is the distance obtained by subtracting two `Point`s (`Metric`). point.h is not part of this model, and the default `Point` is taken to be the origin.
- Floating point is not modelled: coordinates and velocities are exact reals. In particular, the float `0.1f` floor of the sweep length is the real 0.1, and FLT_MAX is its exact real value.
- Integer overflow is not modelled: the score and the rotations are unbounded integers. Rotations stay within (-360, 360) anyway.
- Heap ownership is not modelled, because collections are sequences of values. This covers `new`/`delete`, the lists of pointers, the NULL-pointer branches in `advanceRocks`, `handleCollisions` and `cleanupRocks`, and the destructor. No entry can be NULL.
- The `INVINCIBLE` compile-time switch is not modelled. The model is the build without it, in which the ship is checked.
- `setInvulnerable` has a debug `assert` on a negative duration, which is not modelled. The model keeps only the clamp to zero that follows it.
- CMath.CRem: defined only for a positive divisor, the only kind the source uses (360).
- Sieve.Filter: its contract gives only the bounds and that every survivor is kept. Membership, counts and order are stated by the lemmas in its rows instead.

=== FILE: bullets.dfy ===
/**
 * Bullets (bullet.cpp, bullet.h): flying objects with a lifetime counter
 * that starts at 40 and kills the bullet when it runs down to zero.
 */
module Bullets {
  import opened Geometry
  import F = FlyingObjects

  const BulletSpeed: real := 5.0
  const BulletLife: int := 40
  /** `getRadius` of a bullet. */
  const BulletRadius: real := 5.0

  datatype Bullet = Bullet(body: F.FlyingObject, life: int)

  /** A default-constructed bullet: full lifetime, alive. */
  function New(): (b: Bullet)
    ensures b.life == BulletLife && b.body.alive
  {
    Bullet(F.New(), BulletLife)
  }

  /** `fire`: place the bullet at `origin` heading along `angle`; the lifetime is untouched. */
  function Fire(b: Bullet, trig: Trig, origin: Point, angle: real): (r: Bullet)
    ensures r.body.point == origin
    ensures r.body.velocity == FromAngularSpeed(trig, angle, BulletSpeed)
    ensures r.life == b.life && r.body.alive == b.body.alive
  {
    Bullet(b.body.(point := origin, velocity := FromAngularSpeed(trig, angle, BulletSpeed)), b.life)
  }

  /** `kill`, inherited unchanged from the base object. */
  function Kill(b: Bullet): (r: Bullet)
    ensures !r.body.alive && r.life == b.life
  {
    b.(body := F.Kill(b.body))
  }

  /**
   * `advance`: the base motion rule, then the lifetime counts down while
   * it is positive, and the bullet dies on the step that takes it to zero.
   */
  function Advance(b: Bullet, bounds: F.Bounds): (r: Bullet)
    ensures r.body.point == F.Advance(b.body, bounds).point
    ensures r.body.velocity == b.body.velocity
    ensures 0 <= b.life ==> 0 <= r.life
    ensures r.life == if 0 < b.life then b.life - 1 else b.life
    ensures r.body.alive <==> b.body.alive && b.life != 1
  {
    var moved := F.Advance(b.body, bounds);
    if 0 < b.life then
      var life := b.life - 1;
      if life <= 0 then Bullet(F.Kill(moved), life) else Bullet(moved, life)
    else
      Bullet(moved, b.life)
  }

  /** `n` successive advances. */
  function AdvanceTimes(b: Bullet, bounds: F.Bounds, n: nat): Bullet
  {
    if n == 0 then b else Advance(AdvanceTimes(b, bounds, n - 1), bounds)
  }

  /**
   * A live bullet with `life` steps left survives `life - 1` advances, with
   * the counter going down by one each time, and dies on the next.
   */
  lemma {:induction false} CountdownKillsOnTime(b: Bullet, bounds: F.Bounds, n: nat)
    requires b.body.alive && 0 < b.life
    ensures n < b.life ==> AdvanceTimes(b, bounds, n).body.alive
    ensures n <= b.life ==> AdvanceTimes(b, bounds, n).life == b.life - n
    ensures n == b.life ==> !AdvanceTimes(b, bounds, n).body.alive
  {
    if n > 0 {
      CountdownKillsOnTime(b, bounds, n - 1);
    }
  }

  /** A freshly made bullet is alive through its first 39 advances and dead after the 40th. */
  lemma FreshBulletLivesFortyFrames(bounds: F.Bounds, n: nat)
    ensures n < BulletLife ==> AdvanceTimes(New(), bounds, n).body.alive
    ensures n == BulletLife ==> !AdvanceTimes(New(), bounds, n).body.alive
  {
    CountdownKillsOnTime(New(), bounds, n);
  }
}

=== FILE: cmath.dfy ===
/**
 * Integer remainder as C++ computes it. The C++ `%` operator truncates
 * toward zero, so its result takes the sign of the dividend; Dafny's `%`
 * is Euclidean and is never negative. The rotation updates of ships and
 * rocks use the C++ operator, so the model needs it spelled out.
 */
module CMath {

  /** The C++ remainder `a % m` for a positive divisor. */
  function CRem(a: int, m: int): (r: int)
    requires 0 < m
    ensures -m < r < m
    ensures 0 <= a ==> 0 <= r
    ensures a <= 0 ==> r <= 0
    ensures r % m == a % m
  {
    if 0 <= a then
      a % m
    else
      var t := (-a) % m;
      NegRemCongruent(a, m);
      -t
  }

  /** Euclidean division is unique: any decomposition with a remainder in range is it. */
  lemma DivModUnique(a: int, m: int, q: int, r: int)
    requires 0 < m
    requires 0 <= r < m
    requires a == q * m + r
    ensures a / m == q
    ensures a % m == r
  {
    var q', r' := a / m, a % m;
    assert a == q' * m + r';
    assert (q - q') * m == r' - r;
    if q > q' {
      MulAtLeast(q - q', m);
      assert false;
    } else if q < q' {
      MulAtLeast(q' - q, m);
      assert false;
    }
  }

  lemma MulAtLeast(k: int, m: int)
    requires 1 <= k
    requires 0 < m
    ensures m <= k * m
  {
    assert k * m == (k - 1) * m + m;
    assert 0 <= (k - 1) * m;
  }

  /** For a negative dividend, negating the remainder of the negation keeps the residue class. */
  lemma NegRemCongruent(a: int, m: int)
    requires 0 < m
    requires a < 0
    ensures (-((-a) % m)) % m == a % m
  {
    var q, t := (-a) / m, (-a) % m;
    assert -a == q * m + t;
    if t == 0 {
      assert a == (-q) * m + 0;
      DivModUnique(a, m, -q, 0);
      DivModUnique(0, m, 0, 0);
    } else {
      assert a == (-q - 1) * m + (m - t);
      DivModUnique(a, m, -q - 1, m - t);
      assert -t == (-1) * m + (m - t);
      DivModUnique(-t, m, -1, m - t);
    }
  }

  /** Adding to a residue and reducing again is the same as reducing the sum. */
  lemma ModAddCongruent(x: int, y: int, m: int)
    requires 0 < m
    ensures (x % m + y) % m == (x + y) % m
  {
    var q, s := x / m, x % m;
    assert x == q * m + s;
    var q2, s2 := (s + y) / m, (s + y) % m;
    assert s + y == q2 * m + s2;
    assert x + y == (q + q2) * m + s2;
    DivModUnique(x + y, m, q + q2, s2);
  }

  /** A number already in [0, m) is its own Euclidean residue. */
  lemma ResidueInRange(x: int, m: int)
    requires 0 < m
    requires 0 <= x < m
    ensures x % m == x
  {
    DivModUnique(x, m, 0, x);
  }
}

=== FILE: flying_objects.dfy ===
/**
 * The state every moving thing shares (flyingObject.cpp): a position, a
 * velocity and an alive flag, together with the motion rule that moves an
 * object by its velocity and wraps it around the edges of the field.
 *
 * The source keeps the field's edges in process-wide static variables set
 * once by `setBoundaries`; here they are an explicit `Bounds` value passed
 * to every advance. `Unbounded` is the state before `setBoundaries` runs.
 */
module FlyingObjects {
  import opened Geometry

  datatype Bounds = Unbounded | Bounded(topLeft: Point, bottomRight: Point)

  /** `setBoundaries(tl, br)`: every later advance wraps inside this rectangle. */
  function SetBoundaries(tl: Point, br: Point): (b: Bounds)
    ensures b.Bounded? && b.topLeft == tl && b.bottomRight == br
  {
    Bounded(tl, br)
  }

  /** The top-left corner is really above and to the left of the bottom-right one. */
  predicate WellFormed(b: Bounds)
  {
    b.Bounded? ==> b.topLeft.x <= b.bottomRight.x && b.bottomRight.y <= b.topLeft.y
  }

  /** `p` lies inside the rectangle, edges included. */
  predicate Inside(b: Bounds, p: Point)
  {
    b.Bounded? ==>
      && b.topLeft.x <= p.x <= b.bottomRight.x
      && b.bottomRight.y <= p.y <= b.topLeft.y
  }

  datatype FlyingObject = FlyingObject(point: Point, velocity: Velocity, alive: bool)

  /** A default-constructed object: alive, at the origin, standing still. */
  function New(): (o: FlyingObject)
    ensures o.alive
    ensures o.point == Origin && o.velocity == Still()
  {
    FlyingObject(Origin, Still(), true)
  }

  /** `kill`: unconditionally marks the object dead. */
  function Kill(o: FlyingObject): (r: FlyingObject)
    ensures !r.alive
    ensures r.point == o.point && r.velocity == o.velocity
  {
    o.(alive := false)
  }

  /** `operator+=`: speeds the object up by `v`. */
  function Accelerate(o: FlyingObject, v: Velocity): (r: FlyingObject)
    ensures r.velocity == Plus(o.velocity, v)
    ensures r.point == o.point && r.alive == o.alive
  {
    o.(velocity := AddAssign(o.velocity, v))
  }

  /**
   * One axis of the wrap rule: a coordinate strictly below `low` jumps to
   * `high`, otherwise one strictly above `high` jumps to `low`, otherwise
   * it stays. The jump goes to the far edge itself, not by the overshoot.
   */
  function WrapAxis(c: real, low: real, high: real): (r: real)
  {
    if c < low then high
    else if c > high then low
    else c
  }

  /** `advance`: move by the velocity, then wrap each axis independently. */
  function Advance(o: FlyingObject, b: Bounds): (r: FlyingObject)
    ensures r.velocity == o.velocity && r.alive == o.alive
    ensures b.Unbounded? ==> r.point == Move(o.point, o.velocity)
    ensures WellFormed(b) ==> Inside(b, r.point)
    ensures Inside(b, Move(o.point, o.velocity)) ==> r.point == Move(o.point, o.velocity)
    ensures b.Bounded? ==>
      var m := Move(o.point, o.velocity);
      && (m.x < b.topLeft.x ==> r.point.x == b.bottomRight.x)
      && (b.topLeft.x <= m.x && b.bottomRight.x < m.x ==> r.point.x == b.topLeft.x)
      && (m.y < b.bottomRight.y ==> r.point.y == b.topLeft.y)
      && (b.bottomRight.y <= m.y && b.topLeft.y < m.y ==> r.point.y == b.bottomRight.y)
  {
    var m := Move(o.point, o.velocity);
    match b
    case Unbounded => o.(point := m)
    case Bounded(tl, br) =>
      o.(point := Point(WrapAxis(m.x, tl.x, br.x), WrapAxis(m.y, br.y, tl.y)))
  }

  /** Each axis wraps on its own: where x lands does not depend on y, and vice versa. */
  lemma AxesWrapIndependently(o1: FlyingObject, o2: FlyingObject, b: Bounds)
    ensures Move(o1.point, o1.velocity).x == Move(o2.point, o2.velocity).x
            ==> Advance(o1, b).point.x == Advance(o2, b).point.x
    ensures Move(o1.point, o1.velocity).y == Move(o2.point, o2.velocity).y
            ==> Advance(o1, b).point.y == Advance(o2, b).point.y
  {
  }

  /**
   * An object sitting on the right edge and moving right reappears on the
   * left edge, at the same height.
   */
  lemma RightEdgeWrapsToLeftEdge(o: FlyingObject, b: Bounds)
    requires b.Bounded? && WellFormed(b) && Inside(b, o.point)
    requires o.point.x == b.bottomRight.x
    requires 0.0 < o.velocity.dx && o.velocity.dy == 0.0
    ensures Advance(o, b).point == Point(b.topLeft.x, o.point.y)
  {
  }

  /** A coordinate that lands exactly on an edge is left there: the comparisons are strict. */
  lemma EdgeIsNotWrapped(o: FlyingObject, b: Bounds)
    requires b.Bounded? && WellFormed(b)
    requires Move(o.point, o.velocity) == b.topLeft || Move(o.point, o.velocity) == b.bottomRight
    ensures Advance(o, b).point == Move(o.point, o.velocity)
  {
  }

  lemma KillIsIdempotent(o: FlyingObject)
    ensures Kill(Kill(o)) == Kill(o)
  {
  }
}

=== FILE: games.dfy ===
/**
 * The game world (game.cpp): it owns the ship, the rocks and the bullets,
 * keeps score and lives, and runs each frame in a fixed order: rocks (a
 * fresh wave of five big rocks first if the list is empty), bullets, the
 * ship (or its replacement), collisions, and finally removal of the dead.
 *
 * The random source that places a new wave is a parameter: one `Spawn`
 * (a point and a heading) per rock of the wave. So are the trigonometry
 * behind headings and the distance between two points.
 */
module Games {
  import opened Geometry
  import CMath
  import F = FlyingObjects
  import Bullets
  import Rocks
  import Ships
  import Sweep
  import Sieve

  const MaxLives: int := 3
  const DefaultInvulnerabilityTime: int := 100
  const StartRockCount: nat := 5

  /** One draw of the random source: where a new rock appears and where it heads. */
  datatype Spawn = Spawn(point: Point, angle: real)

  /** The four keys the game polls each frame. */
  datatype Input = Input(left: bool, right: bool, up: bool, space: bool)

  datatype Game = Game(
    topLeft: Point,
    bottomRight: Point,
    rocks: seq<Rocks.Rock>,
    bullets: seq<Bullets.Bullet>,
    ship: Ships.Ship,
    score: int,
    lives: int)

  /** The boundaries the constructor installs for every flying object. */
  function GameBounds(g: Game): F.Bounds
  {
    F.SetBoundaries(g.topLeft, g.bottomRight)
  }

  /** A rock as it stands between frames: alive, with its rotation reduced into [0, 360). */
  predicate RockOk(r: Rocks.Rock)
  {
    r.body.alive && 0 <= r.rotation < Rocks.MaxDegrees
  }

  /** A rock whose rotation lies in [0, 360), alive or not. */
  predicate RotationOk(r: Rocks.Rock)
  {
    0 <= r.rotation < Rocks.MaxDegrees
  }

  /** Every rock's rotation lies in [0, 360). */
  predicate AllRotationsOk(rocks: seq<Rocks.Rock>)
  {
    forall k :: 0 <= k < |rocks| ==> RotationOk(rocks[k])
  }

  /** A bullet as it stands between frames: alive with 1 to 40 frames to go. */
  predicate BulletOk(b: Bullets.Bullet)
  {
    b.body.alive && 1 <= b.life <= Bullets.BulletLife
  }

  /** What holds of the world between frames. */
  predicate Valid(g: Game)
  {
    && 0 <= g.score
    && 0 <= g.lives <= MaxLives
    && Ships.Valid(g.ship)
    && -Ships.MaxDegrees < g.ship.rotation < Ships.MaxDegrees
    && (forall i :: 0 <= i < |g.rocks| ==> RockOk(g.rocks[i]))
    && (forall i :: 0 <= i < |g.bullets| ==> BulletOk(g.bullets[i]))
  }

  // ---------------------------------------------------------------------
  // Construction and the per-frame advance of each kind of object
  // ---------------------------------------------------------------------

  /** `initializeRocks`: append a wave of big rocks, one per spawn, in spawn order. */
  function InitializeRocks(rocks: seq<Rocks.Rock>, trig: Trig, spawns: seq<Spawn>): (r: seq<Rocks.Rock>)
    requires |spawns| == StartRockCount
    ensures |r| == |rocks| + StartRockCount
    ensures r[..|rocks|] == rocks
    ensures forall i :: 0 <= i < StartRockCount ==>
      r[|rocks| + i] == Rocks.Launch(Rocks.Big, trig, spawns[i].point, spawns[i].angle)
  {
    rocks + seq(StartRockCount, i requires 0 <= i < StartRockCount =>
      Rocks.Launch(Rocks.Big, trig, spawns[i].point, spawns[i].angle))
  }

  /**
   * `Game(tl, br)`: boundaries set, score 0, three lives, a wave of five
   * big rocks, and a default ship made invulnerable for 100 frames.
   */
  function NewGame(tl: Point, br: Point, trig: Trig, spawns: seq<Spawn>): (g: Game)
    requires |spawns| == StartRockCount
    ensures Valid(g)
    ensures GameBounds(g) == F.Bounded(tl, br)
    ensures g.score == 0 && g.lives == MaxLives && g.bullets == []
    ensures |g.rocks| == StartRockCount
    ensures forall i :: 0 <= i < |g.rocks| ==>
      && g.rocks[i].size == Rocks.Big && g.rocks[i].rotation == 0
      && g.rocks[i].body.point == spawns[i].point
    ensures g.ship.body.alive && g.ship.invulnerable && g.ship.invulnerableTimer == DefaultInvulnerabilityTime
    ensures g.ship.rotation == Ships.StartingRotation
    ensures g.rocks == InitializeRocks([], trig, spawns)
    ensures g.ship == Ships.SetInvulnerable(Ships.New(), DefaultInvulnerabilityTime)
  {
    var rocks := InitializeRocks([], trig, spawns);
    Game(tl, br, rocks, [], Ships.SetInvulnerable(Ships.New(), DefaultInvulnerabilityTime), 0, MaxLives)
  }

  /** Every rock moved by one frame. */
  function AdvanceEach(rocks: seq<Rocks.Rock>, bounds: F.Bounds): (r: seq<Rocks.Rock>)
    ensures |r| == |rocks|
    ensures forall i :: 0 <= i < |r| ==> r[i] == Rocks.Advance(rocks[i], bounds)
  {
    seq(|rocks|, i requires 0 <= i < |rocks| => Rocks.Advance(rocks[i], bounds))
  }

  /**
   * `advanceRocks`: a new wave of five big rocks is added exactly when the
   * list is empty, then every rock, dead or alive, is advanced.
   */
  function AdvanceRocks(rocks: seq<Rocks.Rock>, bounds: F.Bounds, trig: Trig, spawns: seq<Spawn>): (r: seq<Rocks.Rock>)
    requires |spawns| == StartRockCount
    ensures |r| == if |rocks| == 0 then StartRockCount else |rocks|
    ensures |rocks| == 0 ==> forall i :: 0 <= i < |r| ==>
      r[i] == Rocks.Advance(Rocks.Launch(Rocks.Big, trig, spawns[i].point, spawns[i].angle), bounds)
    ensures |rocks| != 0 ==> forall i :: 0 <= i < |r| ==> r[i] == Rocks.Advance(rocks[i], bounds)
    ensures AllRotationsOk(rocks) ==> AllRotationsOk(r)
  {
    var all := if |rocks| <= 0 then InitializeRocks(rocks, trig, spawns) else rocks;
    AdvanceEach(all, bounds)
  }

  /** `advanceBullets`: every bullet, dead or alive, is advanced. */
  function AdvanceBullets(bullets: seq<Bullets.Bullet>, bounds: F.Bounds): (r: seq<Bullets.Bullet>)
    ensures |r| == |bullets|
    ensures forall i :: 0 <= i < |r| ==> r[i] == Bullets.Advance(bullets[i], bounds)
  {
    seq(|bullets|, i requires 0 <= i < |bullets| => Bullets.Advance(bullets[i], bounds))
  }

  /**
   * The ship's part of `advance`: a live ship moves; a dead one is
   * replaced by a fresh, temporarily invulnerable ship while lives remain,
   * and otherwise stays dead.
   */
  function AdvanceShip(ship: Ships.Ship, lives: int, bounds: F.Bounds): (r: Ships.Ship)
    ensures ship.body.alive ==> r == Ships.Advance(ship, bounds)
    ensures !ship.body.alive && 0 < lives ==>
      r == Ships.SetInvulnerable(Ships.New(), DefaultInvulnerabilityTime)
    ensures !ship.body.alive && lives <= 0 ==> r == ship
    ensures r.body.alive <==> ship.body.alive || 0 < lives
    ensures r.rotation == ship.rotation || r.rotation == Ships.StartingRotation
    ensures Ships.Valid(ship) ==> Ships.Valid(r)
  {
    if ship.body.alive then Ships.Advance(ship, bounds)
    else if lives > 0 then Ships.SetInvulnerable(Ships.New(), DefaultInvulnerabilityTime)
    else ship
  }

  // ---------------------------------------------------------------------
  // Collisions
  // ---------------------------------------------------------------------

  /** The two kinds of object the game checks against the rocks. */
  datatype Object = BulletObject(bullet: Bullets.Bullet) | ShipObject(ship: Ships.Ship)

  function Body(o: Object): F.FlyingObject
  {
    match o
    case BulletObject(b) => b.body
    case ShipObject(s) => s.body
  }

  /** `getRadius`, dispatched on the kind of object. */
  function Radius(o: Object): (r: real)
    ensures 0.0 < r
  {
    match o
    case BulletObject(_) => Bullets.BulletRadius
    case ShipObject(_) => Ships.ShipSize
  }

  /** `kill`, dispatched: a bullet always dies, a ship only when it is not invulnerable. */
  function Kill(o: Object): (k: Object)
    ensures k.BulletObject? <==> o.BulletObject?
    ensures Body(k).point == Body(o).point && Body(k).velocity == Body(o).velocity
    ensures !Body(k).alive <==> o.BulletObject? || !o.ship.invulnerable || !Body(o).alive
    ensures o.ShipObject? && o.ship.invulnerable ==> k == o
  {
    match o
    case BulletObject(b) => BulletObject(Bullets.Kill(b))
    case ShipObject(s) => ShipObject(Ships.Kill(s))
  }

  /**
   * The object came within touching distance of the rock during the frame:
   * the closest approach is at most the two radii together. Touching at
   * the end of the frame is always enough.
   */
  function Collides(o: Object, rock: Rocks.Rock, dist: Metric): (c: bool)
    ensures dist(Body(o).point, rock.body.point) <= Radius(o) + Rocks.Radius(rock.size) ==> c
  {
    Sweep.ClosestDistance(Body(o), rock.body, dist) <= Radius(o) + Rocks.Radius(rock.size)
  }

  /** Rock `j` is the first in list order that the object collides with. */
  predicate IsFirstHit(o: Object, rocks: seq<Rocks.Rock>, dist: Metric, j: int)
  {
    && 0 <= j < |rocks|
    && Collides(o, rocks[j], dist)
    && forall k :: 0 <= k < j ==> !Collides(o, rocks[k], dist)
  }

  /**
   * The walk over the rocks from position `from`: the index of the first
   * rock the object collides with, or the length of the list if none.
   */
  function FirstHit(o: Object, rocks: seq<Rocks.Rock>, dist: Metric, from: nat): (j: nat)
    requires from <= |rocks|
    ensures from <= j <= |rocks|
    ensures j < |rocks| ==> Collides(o, rocks[j], dist)
    ensures forall k :: from <= k < j ==> !Collides(o, rocks[k], dist)
    decreases |rocks| - from
  {
    if from == |rocks| then from
    else if Collides(o, rocks[from], dist) then from
    else FirstHit(o, rocks, dist, from + 1)
  }

  /**
   * The rock list after rock `j` is hit: the fragments are spliced in
   * immediately before it, the rock itself stays in place, now dead, and
   * every other rock is untouched.
   */
  function Splice(rocks: seq<Rocks.Rock>, j: nat): (r: seq<Rocks.Rock>)
    requires j < |rocks|
    ensures var fs := Rocks.Fragments(rocks[j]);
      && |r| == |rocks| + |fs|
      && (forall k :: 0 <= k < j ==> r[k] == rocks[k])
      && (forall k :: j <= k < j + |fs| ==> r[k] == fs[k - j])
      && r[j + |fs|] == Rocks.Kill(rocks[j])
      && (forall k :: j + |fs| < k < |r| ==> r[k] == rocks[k - |fs|])
  {
    var shards := Rocks.Hit(rocks[j]);
    rocks[..j] + shards.fragments + [shards.rock] + rocks[j + 1..]
  }

  /** Splicing keeps every rotation in [0, 360): fragments start at 0 and the hit rock keeps its own. */
  lemma SpliceKeepsRotations(rocks: seq<Rocks.Rock>, j: nat)
    requires j < |rocks|
    requires AllRotationsOk(rocks)
    ensures AllRotationsOk(Splice(rocks, j))
  {
    var r, fs := Splice(rocks, j), Rocks.Fragments(rocks[j]);
    forall k | 0 <= k < |r|
      ensures RotationOk(r[k])
    {
      if k < j {
      } else if k < j + |fs| {
        assert r[j + (k - j)] == fs[k - j];
      } else if k == j + |fs| {
      } else {
        assert r[(k - |fs|) + |fs|] == rocks[k - |fs|];
      }
    }
  }

  /** The object collides with some rock of the list. */
  predicate AnyCollision(o: Object, rocks: seq<Rocks.Rock>, dist: Metric)
  {
    exists j :: 0 <= j < |rocks| && Collides(o, rocks[j], dist)
  }

  /** `after` is `rocks` with the first rock the object collides with hit and its fragments spliced in. */
  ghost predicate SplicedAtFirstHit(o: Object, rocks: seq<Rocks.Rock>, dist: Metric, after: seq<Rocks.Rock>)
  {
    exists j :: IsFirstHit(o, rocks, dist, j) && after == Splice(rocks, j)
  }

  /** The result of `handleCollisions(obj)`: HIT or MISS, the object afterwards, and the rock list afterwards. */
  datatype Outcome = Outcome(hit: bool, obj: Object, rocks: seq<Rocks.Rock>)

  /**
   * `handleCollisions(obj)`: the rocks are tried in list order, dead ones
   * included. On the first one the object collides with, the object is
   * killed, the rock is hit and its fragments spliced in before it, and the
   * result is HIT. If there is none, nothing changes and the result is MISS.
   */
  function HandleCollisions(o: Object, rocks: seq<Rocks.Rock>, dist: Metric): (r: Outcome)
    ensures r.hit <==> AnyCollision(o, rocks, dist)
    ensures !r.hit ==> r.obj == o && r.rocks == rocks
    ensures r.hit ==> r.obj == Kill(o)
    ensures r.hit ==> SplicedAtFirstHit(o, rocks, dist, r.rocks)
    ensures |rocks| <= |r.rocks|
  {
    var j := FirstHit(o, rocks, dist, 0);
    if j < |rocks| then Outcome(true, Kill(o), Splice(rocks, j)) else Outcome(false, o, rocks)
  }

  /** A collision check keeps every rock's rotation in [0, 360). */
  lemma HandleCollisionsKeepsRotations(o: Object, rocks: seq<Rocks.Rock>, dist: Metric)
    ensures AllRotationsOk(rocks) ==> AllRotationsOk(HandleCollisions(o, rocks, dist).rocks)
  {
    var j := FirstHit(o, rocks, dist, 0);
    if j < |rocks| && AllRotationsOk(rocks) {
      SpliceKeepsRotations(rocks, j);
    }
  }

  /**
   * The swept test is what decides: an object that comes within touching
   * distance of rock `j` at any sample of the frame gets a HIT, even if
   * the two end the frame far apart.
   */
  lemma SweptContactIsHit(o: Object, rocks: seq<Rocks.Rock>, dist: Metric, j: nat, i: nat)
    requires j < |rocks|
    requires var d := Sweep.SweepLength(Body(o).velocity, rocks[j].body.velocity);
      && i <= Sweep.LastStep(d)
      && Sweep.Sample(Body(o), rocks[j].body, dist, d, i) <= Radius(o) + Rocks.Radius(rocks[j].size)
    ensures HandleCollisions(o, rocks, dist).hit
  {
    Sweep.SweptContactIsSeen(Body(o), rocks[j].body, dist, Radius(o) + Rocks.Radius(rocks[j].size), i);
    assert Collides(o, rocks[j], dist);
  }

  /** A rock already killed earlier in the frame is not skipped: hitting it again yields its fragments again. */
  lemma DeadRockStillFragments(o: Object, rock: Rocks.Rock, dist: Metric)
    requires !rock.body.alive
    requires dist(Body(o).point, rock.body.point) <= Radius(o) + Rocks.Radius(rock.size)
    ensures HandleCollisions(o, [rock], dist).hit
    ensures HandleCollisions(o, [rock], dist).rocks == Rocks.Fragments(rock) + [rock]
  {
    var r := HandleCollisions(o, [rock], dist);
    assert r.rocks == Splice([rock], 0);
  }

  /** Number of HIT results. */
  function CountHits(hits: seq<bool>): (n: nat)
    ensures n <= |hits|
  {
    if |hits| == 0 then 0 else CountHits(hits[..|hits| - 1]) + (if hits[|hits| - 1] then 1 else 0)
  }

  /** The bullets' half of the collision pass: bullets after it, rocks after it, and each bullet's HIT/MISS. */
  datatype BulletPass = BulletPass(bullets: seq<Bullets.Bullet>, rocks: seq<Rocks.Rock>, hits: seq<bool>)

  /** Each bullet after the pass is the bullet before it, killed exactly where its result was a HIT. */
  predicate Settled(before: seq<Bullets.Bullet>, after: seq<Bullets.Bullet>, hits: seq<bool>)
  {
    && |after| == |before| && |hits| == |before|
    && forall i :: 0 <= i < |before| ==> after[i] == if hits[i] then Bullets.Kill(before[i]) else before[i]
  }

  /** Settling the first bullet and then the rest settles the whole list. */
  lemma SettledCons(bullets: seq<Bullets.Bullet>, hit: bool, after: seq<Bullets.Bullet>, hits: seq<bool>)
    requires 0 < |bullets| && Settled(bullets[1..], after, hits)
    ensures Settled(bullets, [if hit then Bullets.Kill(bullets[0]) else bullets[0]] + after, [hit] + hits)
  {
    var ws, hs := [if hit then Bullets.Kill(bullets[0]) else bullets[0]] + after, [hit] + hits;
    forall i | 1 <= i < |bullets|
      ensures ws[i] == if hs[i] then Bullets.Kill(bullets[i]) else bullets[i]
    {
      assert ws[i] == after[i - 1] && hs[i] == hits[i - 1] && bullets[1..][i - 1] == bullets[i];
    }
  }

  /** What one bullet's check does to the rock list. */
  type RockStep = (Bullets.Bullet, seq<Rocks.Rock>) -> seq<Rocks.Rock>

  /** Whether one bullet's check, against a given rock list, is a HIT. */
  type HitTest = (Bullets.Bullet, seq<Rocks.Rock>) -> bool

  /** The rock list after `step` has run for the first `n` bullets, in list order. */
  function Fold(step: RockStep, bullets: seq<Bullets.Bullet>, rocks: seq<Rocks.Rock>, n: nat): seq<Rocks.Rock>
    requires n <= |bullets|
  {
    if n == 0 then rocks else step(bullets[n - 1], Fold(step, bullets, rocks, n - 1))
  }

  /** Running the first bullet, then the rest from where it left the rocks, is running them all in order. */
  lemma {:induction false} FoldShift(step: RockStep, bullets: seq<Bullets.Bullet>, rocks: seq<Rocks.Rock>, n: nat)
    requires n < |bullets|
    ensures Fold(step, bullets, rocks, n + 1) == Fold(step, bullets[1..], step(bullets[0], rocks), n)
  {
    if n > 0 {
      FoldShift(step, bullets, rocks, n - 1);
      assert bullets[1..][n - 1] == bullets[n];
    }
  }

  /** `hits[i]` is bullet `i`'s result against the rocks as the bullets before it left them. */
  predicate InOrder(hitOf: HitTest, step: RockStep, bullets: seq<Bullets.Bullet>, rocks: seq<Rocks.Rock>,
                    hits: seq<bool>)
  {
    && |hits| == |bullets|
    && forall i :: 0 <= i < |bullets| ==> hits[i] == hitOf(bullets[i], Fold(step, bullets, rocks, i))
  }

  /** The first bullet's result followed by the rest's, each in order, is every bullet's result in order. */
  lemma InOrderCons(hitOf: HitTest, step: RockStep, bullets: seq<Bullets.Bullet>, rocks: seq<Rocks.Rock>,
                    hits: seq<bool>)
    requires 0 < |bullets|
    requires InOrder(hitOf, step, bullets[1..], step(bullets[0], rocks), hits)
    ensures InOrder(hitOf, step, bullets, rocks, [hitOf(bullets[0], rocks)] + hits)
  {
    var hs := [hitOf(bullets[0], rocks)] + hits;
    forall i | 1 <= i < |bullets|
      ensures hs[i] == hitOf(bullets[i], Fold(step, bullets, rocks, i))
    {
      FoldShift(step, bullets, rocks, i - 1);
      assert bullets[1..][i - 1] == bullets[i];
    }
  }

  /**
   * The bullets' pass for a given per-bullet check, written as the source
   * walks the list: the head bullet is checked against the rocks, then
   * the rest against the rocks as that check left them. A bullet whose
   * check is a HIT comes out killed, any other comes out as it went in.
   */
  function Pass(hitOf: HitTest, step: RockStep, bullets: seq<Bullets.Bullet>, rocks: seq<Rocks.Rock>): (r: BulletPass)
    ensures Settled(bullets, r.bullets, r.hits)
    ensures InOrder(hitOf, step, bullets, rocks, r.hits)
    ensures r.rocks == Fold(step, bullets, rocks, |bullets|)
    decreases |bullets|
  {
    if |bullets| == 0 then BulletPass([], rocks, [])
    else
      var hit := hitOf(bullets[0], rocks);
      var rest := Pass(hitOf, step, bullets[1..], step(bullets[0], rocks));
      SettledCons(bullets, hit, rest.bullets, rest.hits);
      InOrderCons(hitOf, step, bullets, rocks, rest.hits);
      FoldShift(step, bullets, rocks, |bullets| - 1);
      BulletPass([if hit then Bullets.Kill(bullets[0]) else bullets[0]] + rest.bullets, rest.rocks,
                 [hit] + rest.hits)
  }

  /** The number of HITs among the first `n` bullets' results, each against the rocks the bullets before it left. */
  function HitCount(hitOf: HitTest, step: RockStep, bullets: seq<Bullets.Bullet>, rocks: seq<Rocks.Rock>,
                    n: nat): nat
    requires n <= |bullets|
  {
    if n == 0 then 0
    else HitCount(hitOf, step, bullets, rocks, n - 1)
         + (if hitOf(bullets[n - 1], Fold(step, bullets, rocks, n - 1)) then 1 else 0)
  }

  /** Counting the HIT results of checks made in order counts the HITs of those checks. */
  lemma {:induction false} CountHitsInOrder(hitOf: HitTest, step: RockStep, bullets: seq<Bullets.Bullet>,
                                            rocks: seq<Rocks.Rock>, hits: seq<bool>, n: nat)
    requires InOrder(hitOf, step, bullets, rocks, hits)
    requires n <= |bullets|
    ensures CountHits(hits[..n]) == HitCount(hitOf, step, bullets, rocks, n)
  {
    if n > 0 {
      CountHitsInOrder(hitOf, step, bullets, rocks, hits, n - 1);
      assert hits[..n][..n - 1] == hits[..n - 1];
    }
  }

  /** `handleCollisions(bullet)` as a step of the bullets' pass: the rocks it leaves behind. */
  function RocksHit(dist: Metric): RockStep
  {
    (b: Bullets.Bullet, rocks: seq<Rocks.Rock>) => HandleCollisions(BulletObject(b), rocks, dist).rocks
  }

  /** `handleCollisions(bullet)` as a step of the bullets' pass: HIT or MISS. */
  function BulletHits(dist: Metric): HitTest
  {
    (b: Bullets.Bullet, rocks: seq<Rocks.Rock>) => HandleCollisions(BulletObject(b), rocks, dist).hit
  }

  /** A bullet comes out of `handleCollisions` killed on HIT and untouched on MISS. */
  lemma BulletOutcome(b: Bullets.Bullet, rocks: seq<Rocks.Rock>, dist: Metric)
    ensures var c := HandleCollisions(BulletObject(b), rocks, dist);
      c.obj == BulletObject(if c.hit then Bullets.Kill(b) else b)
  {
  }

  /** The rock list as the checks of the first `n` bullets, in list order, leave it. */
  function RocksAfter(bullets: seq<Bullets.Bullet>, rocks: seq<Rocks.Rock>, dist: Metric, n: nat): seq<Rocks.Rock>
    requires n <= |bullets|
  {
    Fold(RocksHit(dist), bullets, rocks, n)
  }

  /** `hits[i]` is the result of bullet `i`'s `handleCollisions`, run against `RocksAfter(.., i)`. */
  predicate ChecksInOrder(bullets: seq<Bullets.Bullet>, rocks: seq<Rocks.Rock>, dist: Metric, hits: seq<bool>)
  {
    InOrder(BulletHits(dist), RocksHit(dist), bullets, rocks, hits)
  }

  /**
   * Every bullet, dead or alive, in list order, runs `handleCollisions`
   * against the rocks as the bullets before it left them. A bullet that
   * hits is killed (`BulletOutcome`); a bullet that misses is untouched.
   */
  function CollideBullets(bullets: seq<Bullets.Bullet>, rocks: seq<Rocks.Rock>, dist: Metric): (r: BulletPass)
    ensures Settled(bullets, r.bullets, r.hits)
    ensures ChecksInOrder(bullets, rocks, dist, r.hits)
    ensures r.rocks == RocksAfter(bullets, rocks, dist, |bullets|)
  {
    Pass(BulletHits(dist), RocksHit(dist), bullets, rocks)
  }

  /** A step that never drops a rock and keeps every rotation in [0, 360). */
  ghost predicate KeepsRocks(step: RockStep)
  {
    forall b, rocks :: |rocks| <= |step(b, rocks)| && (AllRotationsOk(rocks) ==> AllRotationsOk(step(b, rocks)))
  }

  /** A run of such steps keeps the rocks the same way. */
  lemma {:induction false} FoldKeepsRocks(step: RockStep, bullets: seq<Bullets.Bullet>, rocks: seq<Rocks.Rock>, n: nat)
    requires KeepsRocks(step)
    requires n <= |bullets|
    ensures |rocks| <= |Fold(step, bullets, rocks, n)|
    ensures AllRotationsOk(rocks) ==> AllRotationsOk(Fold(step, bullets, rocks, n))
  {
    if n > 0 {
      FoldKeepsRocks(step, bullets, rocks, n - 1);
    }
  }

  /** The bullets' pass only adds rocks, and keeps every rotation in [0, 360). */
  lemma BulletPassKeepsRocks(bullets: seq<Bullets.Bullet>, rocks: seq<Rocks.Rock>, dist: Metric)
    ensures |rocks| <= |RocksAfter(bullets, rocks, dist, |bullets|)|
    ensures AllRotationsOk(rocks) ==> AllRotationsOk(RocksAfter(bullets, rocks, dist, |bullets|))
  {
    forall b, before ensures
      var after := RocksHit(dist)(b, before);
      |before| <= |after| && (AllRotationsOk(before) ==> AllRotationsOk(after))
    {
      HandleCollisionsKeepsRotations(BulletObject(b), before, dist);
    }
    FoldKeepsRocks(RocksHit(dist), bullets, rocks, |bullets|);
  }

  /** A bullet that has already died this frame still scores if it reaches a rock. */
  lemma DeadBulletStillScores(b: Bullets.Bullet, rock: Rocks.Rock, dist: Metric)
    requires !b.body.alive
    requires dist(b.body.point, rock.body.point) <= Bullets.BulletRadius + Rocks.Radius(rock.size)
    ensures CollideBullets([b], [rock], dist).hits == [true]
  {
    var hits := CollideBullets([b], [rock], dist).hits;
    assert Collides(BulletObject(b), [rock][0], dist);
    assert hits[0] == BulletHits(dist)([b][0], RocksAfter([b], [rock], dist, 0));
  }

  /** The ship's half of the collision pass. */
  datatype ShipPass = ShipPass(ship: Ships.Ship, rocks: seq<Rocks.Rock>, lives: int)

  /**
   * A live ship runs `handleCollisions` once; on HIT a life is lost if any
   * remain, whether or not the ship's own kill took effect. A dead ship is
   * not checked.
   */
  function CollideShip(ship: Ships.Ship, rocks: seq<Rocks.Rock>, lives: int, dist: Metric): (r: ShipPass)
    ensures !ship.body.alive ==> r == ShipPass(ship, rocks, lives)
    ensures ship.body.alive ==>
      var c := HandleCollisions(ShipObject(ship), rocks, dist);
      && r.rocks == c.rocks
      && r.ship == (if c.hit then Ships.Kill(ship) else ship)
      && (r.lives == lives - 1 <==> c.hit && 0 < lives)
    ensures r.lives == lives || (r.lives == lives - 1 && 0 < lives)
    ensures AllRotationsOk(rocks) ==> AllRotationsOk(r.rocks)
  {
    if ship.body.alive then
      var c := HandleCollisions(ShipObject(ship), rocks, dist);
      HandleCollisionsKeepsRotations(ShipObject(ship), rocks, dist);
      ShipPass(c.obj.ship, c.rocks, if c.hit && lives > 0 then lives - 1 else lives)
    else
      ShipPass(ship, rocks, lives)
  }

  /** An invulnerable ship that hits a rock survives unchanged, yet a life is still lost. */
  lemma InvulnerableShipStillLosesLife(ship: Ships.Ship, rocks: seq<Rocks.Rock>, j: int, lives: int, dist: Metric)
    requires ship.body.alive && ship.invulnerable && 0 < lives
    requires 0 <= j < |rocks|
    requires dist(ship.body.point, rocks[j].body.point) <= Ships.ShipSize + Rocks.Radius(rocks[j].size)
    ensures CollideShip(ship, rocks, lives, dist).ship == ship
    ensures CollideShip(ship, rocks, lives, dist).lives == lives - 1
  {
    assert Collides(ShipObject(ship), rocks[j], dist);
  }

  // ---------------------------------------------------------------------
  // Cleanup
  // ---------------------------------------------------------------------

  predicate BulletAlive(b: Bullets.Bullet) { b.body.alive }

  predicate RockAlive(r: Rocks.Rock) { r.body.alive }

  /** `cleanupBullets`: drop the dead bullets, keep the live ones in order. */
  function CleanupBullets(bullets: seq<Bullets.Bullet>): (r: seq<Bullets.Bullet>)
    ensures forall i :: 0 <= i < |r| ==> r[i].body.alive
    ensures forall b :: b in r <==> b in bullets && b.body.alive
    ensures forall b :: multiset(r)[b] == if b.body.alive then multiset(bullets)[b] else 0
  {
    var r := Sieve.Filter(bullets, BulletAlive);
    forall b ensures multiset(r)[b] == if b.body.alive then multiset(bullets)[b] else 0 {
      Sieve.FilterCounts(bullets, BulletAlive, b);
    }
    Sieve.FilterMembers(bullets, BulletAlive);
    r
  }

  /** `cleanupRocks`: drop the dead rocks, keep the live ones in order. */
  function CleanupRocks(rocks: seq<Rocks.Rock>): (r: seq<Rocks.Rock>)
    ensures forall i :: 0 <= i < |r| ==> r[i].body.alive
    ensures forall x :: x in r <==> x in rocks && x.body.alive
    ensures forall x :: multiset(r)[x] == if x.body.alive then multiset(rocks)[x] else 0
  {
    var r := Sieve.Filter(rocks, RockAlive);
    forall x ensures multiset(r)[x] == if x.body.alive then multiset(rocks)[x] else 0 {
      Sieve.FilterCounts(rocks, RockAlive, x);
    }
    Sieve.FilterMembers(rocks, RockAlive);
    r
  }

  /** Cleanup keeps survivors in their relative order: it distributes over concatenation. */
  lemma CleanupKeepsOrder(a: seq<Rocks.Rock>, b: seq<Rocks.Rock>, c: seq<Bullets.Bullet>, d: seq<Bullets.Bullet>)
    ensures CleanupRocks(a + b) == CleanupRocks(a) + CleanupRocks(b)
    ensures CleanupBullets(c + d) == CleanupBullets(c) + CleanupBullets(d)
  {
    Sieve.FilterAppend(a, b, RockAlive);
    Sieve.FilterAppend(c, d, BulletAlive);
  }

  // ---------------------------------------------------------------------
  // One frame
  // ---------------------------------------------------------------------

  /** Everything the collision pass changes. */
  datatype Collisions = Collisions(
    bullets: seq<Bullets.Bullet>,
    rocks: seq<Rocks.Rock>,
    ship: Ships.Ship,
    hits: seq<bool>,
    lives: int)

  /**
   * `handleCollisions()`: first every bullet against the rocks, then the
   * ship against the rocks as the bullets left them.
   */
  function HandleAllCollisions(bullets: seq<Bullets.Bullet>, rocks: seq<Rocks.Rock>, ship: Ships.Ship,
                               lives: int, dist: Metric): (r: Collisions)
    ensures Settled(bullets, r.bullets, r.hits)
    ensures ChecksInOrder(bullets, rocks, dist, r.hits)
    ensures ShipPass(r.ship, r.rocks, r.lives) == CollideShip(ship, RocksAfter(bullets, rocks, dist, |bullets|), lives, dist)
    ensures r.ship == ship || r.ship == Ships.Kill(ship)
    ensures r.lives == lives || (r.lives == lives - 1 && 0 < lives)
    ensures |rocks| <= |r.rocks|
    ensures AllRotationsOk(rocks) ==> AllRotationsOk(r.rocks)
  {
    var bp := CollideBullets(bullets, rocks, dist);
    BulletPassKeepsRocks(bullets, rocks, dist);
    var sp := CollideShip(ship, bp.rocks, lives, dist);
    Collisions(bp.bullets, sp.rocks, sp.ship, bp.hits, sp.lives)
  }

  /**
   * `advance`: rocks, bullets, ship, collisions (bullets first, then the
   * ship), cleanup. The score goes up by one per bullet whose check was a
   * HIT; at most one life is lost.
   */
  function Advance(g: Game, trig: Trig, spawns: seq<Spawn>, dist: Metric): (r: Game)
    requires |spawns| == StartRockCount
    ensures r.topLeft == g.topLeft && r.bottomRight == g.bottomRight
    ensures forall i :: 0 <= i < |r.rocks| ==> r.rocks[i].body.alive
    ensures forall i :: 0 <= i < |r.bullets| ==> r.bullets[i].body.alive
    ensures g.score <= r.score <= g.score + |g.bullets|
    ensures r.lives == g.lives || (r.lives == g.lives - 1 && 0 < g.lives)
    ensures var bounds := GameBounds(g);
      var c := HandleAllCollisions(AdvanceBullets(g.bullets, bounds), AdvanceRocks(g.rocks, bounds, trig, spawns),
                                   AdvanceShip(g.ship, g.lives, bounds), g.lives, dist);
      && r.rocks == CleanupRocks(c.rocks) && r.bullets == CleanupBullets(c.bullets)
      && r.ship == c.ship && r.lives == c.lives
  {
    var bounds := GameBounds(g);
    var c := HandleAllCollisions(AdvanceBullets(g.bullets, bounds), AdvanceRocks(g.rocks, bounds, trig, spawns),
                                 AdvanceShip(g.ship, g.lives, bounds), g.lives, dist);
    Game(g.topLeft, g.bottomRight, CleanupRocks(c.rocks), CleanupBullets(c.bullets),
         c.ship, g.score + CountHits(c.hits), c.lives)
  }

  /** A frame keeps the world valid. */
  lemma FrameKeepsValid(g: Game, trig: Trig, spawns: seq<Spawn>, dist: Metric)
    requires |spawns| == StartRockCount
    requires Valid(g)
    ensures Valid(Advance(g, trig, spawns, dist))
  {
    var bounds := GameBounds(g);
    var bullets := AdvanceBullets(g.bullets, bounds);
    var ship := AdvanceShip(g.ship, g.lives, bounds);
    var rocks := AdvanceRocks(g.rocks, bounds, trig, spawns);
    assert AllRotationsOk(g.rocks);
    assert AllRotationsOk(rocks);
    var c := HandleAllCollisions(bullets, rocks, ship, g.lives, dist);
    assert AllRotationsOk(c.rocks);
    AdvanceKeepsValid(g, bullets, ship, c, Advance(g, trig, spawns, dist));
  }

  lemma AdvanceKeepsValid(g: Game, bullets: seq<Bullets.Bullet>, ship: Ships.Ship, c: Collisions, r: Game)
    requires Valid(g)
    requires bullets == AdvanceBullets(g.bullets, GameBounds(g))
    requires Settled(bullets, c.bullets, c.hits)
    requires AllRotationsOk(c.rocks)
    requires ship == AdvanceShip(g.ship, g.lives, GameBounds(g))
    requires c.ship == ship || c.ship == Ships.Kill(ship)
    requires c.lives == g.lives || (c.lives == g.lives - 1 && 0 < g.lives)
    requires r.rocks == CleanupRocks(c.rocks) && r.bullets == CleanupBullets(c.bullets)
    requires r.ship == c.ship && r.lives == c.lives && g.score <= r.score
    ensures Valid(r)
  {
    assert Ships.Valid(ship) && -Ships.MaxDegrees < ship.rotation < Ships.MaxDegrees;
    assert Ships.Valid(r.ship) && r.ship.rotation == ship.rotation;
    forall i | 0 <= i < |r.rocks|
      ensures RockOk(r.rocks[i])
    {
      assert r.rocks[i] in c.rocks;
    }
    SurvivingBulletsOk(g.bullets, GameBounds(g), c.bullets, c.hits);
  }

  /** A bullet that is still alive after advancing and the collision pass has 1 to 39 frames left. */
  lemma SurvivingBulletsOk(bullets: seq<Bullets.Bullet>, bounds: F.Bounds, after: seq<Bullets.Bullet>,
                           hits: seq<bool>)
    requires forall i :: 0 <= i < |bullets| ==> BulletOk(bullets[i])
    requires Settled(AdvanceBullets(bullets, bounds), after, hits)
    ensures forall i :: 0 <= i < |CleanupBullets(after)| ==> BulletOk(CleanupBullets(after)[i])
  {
    var kept := CleanupBullets(after);
    forall i | 0 <= i < |kept|
      ensures BulletOk(kept[i])
    {
      var b := kept[i];
      assert b in after;
      var j :| 0 <= j < |after| && after[j] == b;
      assert BulletOk(bullets[j]);
    }
  }

  /**
   * The score after a frame is the old score plus one for each advanced
   * bullet whose check, made in list order against the advanced rocks as
   * the bullets before it left them, was a HIT.
   */
  lemma ScoreCountsBulletHits(g: Game, trig: Trig, spawns: seq<Spawn>, dist: Metric)
    requires |spawns| == StartRockCount
    ensures var bounds := GameBounds(g);
      var bullets := AdvanceBullets(g.bullets, bounds);
      Advance(g, trig, spawns, dist).score
        == g.score + HitCount(BulletHits(dist), RocksHit(dist), bullets, AdvanceRocks(g.rocks, bounds, trig, spawns),
                              |bullets|)
  {
    var bounds := GameBounds(g);
    var bullets := AdvanceBullets(g.bullets, bounds);
    var rocks := AdvanceRocks(g.rocks, bounds, trig, spawns);
    var c := HandleAllCollisions(bullets, rocks, AdvanceShip(g.ship, g.lives, bounds), g.lives, dist);
    CountHitsInOrder(BulletHits(dist), RocksHit(dist), bullets, rocks, c.hits, |bullets|);
    assert c.hits[..|bullets|] == c.hits;
  }

  /** With no lives left and the ship dead, the game is over: the ship stays dead and lives stay at zero. */
  lemma GameOverIsFinal(g: Game, trig: Trig, spawns: seq<Spawn>, dist: Metric)
    requires |spawns| == StartRockCount
    requires !g.ship.body.alive && g.lives == 0
    ensures !Advance(g, trig, spawns, dist).ship.body.alive
    ensures Advance(g, trig, spawns, dist).lives == 0
  {
  }

  // ---------------------------------------------------------------------
  // Input
  // ---------------------------------------------------------------------

  /**
   * The ship part of `handleInput`: right, left and up, in that order. Each
   * turn moves the rotation by six degrees with C++ `%` (so it may go
   * negative) and keeps the heading in step modulo 360; up adds a thrust of
   * 0.5 along the rotation as it stands after the turns.
   */
  function Steer(s: Ships.Ship, input: Input, trig: Trig): (r: Ships.Ship)
    ensures var right := if input.right then CMath.CRem(s.rotation - Ships.RotateAmount, Ships.MaxDegrees)
                         else s.rotation;
      r.rotation == if input.left then CMath.CRem(right + Ships.RotateAmount, Ships.MaxDegrees) else right
    ensures Ships.Heading(r) == (Ships.Heading(s)
        + (if input.left then Ships.RotateAmount else 0)
        - (if input.right then Ships.RotateAmount else 0)) % Ships.MaxDegrees
    ensures r.body.velocity
         == if input.up
            then Plus(s.body.velocity, FromAngularSpeed(trig, r.rotation as real, Ships.ThrustAmount))
            else s.body.velocity
    ensures r.thrusted == (s.thrusted || input.up)
    ensures r.body.point == s.body.point && r.body.alive == s.body.alive
    ensures r.invulnerable == s.invulnerable && r.invulnerableTimer == s.invulnerableTimer
    ensures r.drawThrust == s.drawThrust
  {
    var turnedRight := if input.right then Ships.RotateRight(s) else s;
    var turned := if input.left then Ships.RotateLeft(turnedRight) else turnedRight;
    HeadingAfterTurns(s, input);
    if input.up then Ships.Thrust(turned, trig) else turned
  }

  /**
   * `handleInput`: nothing happens while the ship is dead. Otherwise the
   * ship is steered (`Steer`), and space appends a bullet fired from the
   * ship as it stands after that.
   */
  function HandleInput(g: Game, input: Input, trig: Trig): (r: Game)
    ensures !g.ship.body.alive ==> r == g
    ensures r == g.(ship := r.ship, bullets := r.bullets)
    ensures g.ship.body.alive ==> r.ship == Steer(g.ship, input, trig)
    ensures g.ship.body.alive ==>
      r.bullets == g.bullets + (if input.space then [Ships.Fire(r.ship, trig)] else [])
  {
    if !g.ship.body.alive then g
    else
      var ship := Steer(g.ship, input, trig);
      var bullets := if input.space then g.bullets + [Ships.Fire(ship, trig)] else g.bullets;
      g.(ship := ship, bullets := bullets)
  }

  /** Input keeps the world valid: turns keep the rotation within (-360, 360), and a new bullet has 40 frames. */
  lemma InputKeepsValid(g: Game, input: Input, trig: Trig)
    requires Valid(g)
    ensures Valid(HandleInput(g, input, trig))
  {
    var r := HandleInput(g, input, trig);
    if g.ship.body.alive {
      assert Ships.Valid(r.ship);
      forall i | 0 <= i < |r.bullets|
        ensures BulletOk(r.bullets[i])
      {
        if i < |g.bullets| {
          assert r.bullets[i] == g.bullets[i];
        }
      }
    }
  }

  lemma HeadingAfterTurns(s: Ships.Ship, input: Input)
    ensures var turnedRight := if input.right then Ships.RotateRight(s) else s;
      var turned := if input.left then Ships.RotateLeft(turnedRight) else turnedRight;
      Ships.Heading(turned) == (Ships.Heading(s)
        + (if input.left then Ships.RotateAmount else 0)
        - (if input.right then Ships.RotateAmount else 0)) % Ships.MaxDegrees
  {
    var h := Ships.Heading(s);
    if input.right && input.left {
      Ships.TurnsCancel(s);
      CMath.ResidueInRange(h, Ships.MaxDegrees);
    } else if !input.right && !input.left {
      CMath.ResidueInRange(h, Ships.MaxDegrees);
    }
  }
}

=== FILE: geometry.dfy ===
/**
 * Points and velocities of the playing field (velocity.cpp, and the Point
 * type it works with). Coordinates are real numbers: the source's
 * single-precision rounding is not modelled.
 */
module Geometry {

  /** A position on the field. The default position is the origin. */
  datatype Point = Point(x: real, y: real)

  const Origin: Point := Point(0.0, 0.0)

  /** A displacement per frame. */
  datatype Velocity = Velocity(dx: real, dy: real)

  /** The velocity a default-constructed Velocity holds. */
  function Still(): (v: Velocity)
    ensures v.dx == 0.0 && v.dy == 0.0
  {
    Velocity(0.0, 0.0)
  }

  /**
   * The cosine and sine of an angle given in degrees. The game only ever
   * reads them through FromAngularSpeed; they are a parameter of the model
   * rather than a definition of it.
   */
  datatype Trig = Trig(cosDeg: real -> real, sinDeg: real -> real)

  /**
   * The distance between two points, which the source obtains by
   * subtracting one Point from another. Left abstract, like Trig.
   */
  type Metric = (Point, Point) -> real

  /** The velocity of something moving at `speed` along heading `angle` (degrees). */
  function FromAngularSpeed(trig: Trig, angle: real, speed: real): (v: Velocity)
    ensures speed == 0.0 ==> v == Still()
  {
    Velocity(speed * trig.cosDeg(angle), speed * trig.sinDeg(angle))
  }

  /** `operator+`: component-wise sum of two velocities. */
  function Plus(lhs: Velocity, rhs: Velocity): (v: Velocity)
    ensures lhs == Still() ==> v == rhs
    ensures rhs == Still() ==> v == lhs
  {
    Velocity(lhs.dx + rhs.dx, lhs.dy + rhs.dy)
  }

  /** `operator+=`: the left-hand velocity after `rhs` is added onto it. */
  function AddAssign(lhs: Velocity, rhs: Velocity): (v: Velocity)
    ensures v == Plus(lhs, rhs)
  {
    lhs.(dx := lhs.dx + rhs.dx).(dy := lhs.dy + rhs.dy)
  }

  /** `addVelocity`: the receiver after `other` is added onto it. */
  function AddVelocity(self: Velocity, other: Velocity): (v: Velocity)
    ensures v == AddAssign(self, other)
  {
    var withX := self.(dx := self.dx + other.dx);
    withX.(dy := withX.dy + other.dy)
  }

  /** Moving a point by one frame's displacement (`Point += Velocity`). */
  function Move(p: Point, v: Velocity): (q: Point)
    ensures q == p <==> v == Still()
  {
    Point(p.x + v.dx, p.y + v.dy)
  }

  lemma PlusCommutes(a: Velocity, b: Velocity)
    ensures Plus(a, b) == Plus(b, a)
  {
  }

  lemma PlusAssociates(a: Velocity, b: Velocity, c: Velocity)
    ensures Plus(Plus(a, b), c) == Plus(a, Plus(b, c))
  {
  }

  /** Speeds along one heading add up: two thrusts equal one thrust of the summed speed. */
  lemma AngularSpeedsAdd(trig: Trig, angle: real, s1: real, s2: real)
    ensures Plus(FromAngularSpeed(trig, angle, s1), FromAngularSpeed(trig, angle, s2))
         == FromAngularSpeed(trig, angle, s1 + s2)
  {
  }
}

=== FILE: rocks.dfy ===
/**
 * Asteroids (rocks.h, rocks.cpp). The three classes BigRock, MediumRock
 * and SmallRock become one datatype tagged with its size; the per-class
 * radius, spin and fragmentation rule dispatch on the tag.
 */
module Rocks {
  import opened Geometry
  import opened CMath
  import F = FlyingObjects

  const BigRockSize: real := 16.0
  const MediumRockSize: real := 8.0
  const SmallRockSize: real := 4.0

  const BigRockSpin: int := 2
  const MediumRockSpin: int := 5
  const SmallRockSpin: int := 10

  const DefaultRockSpeed: real := 1.0
  const MaxDegrees: int := 360

  datatype Size = Big | Medium | Small

  datatype Rock = Rock(size: Size, body: F.FlyingObject, rotation: int)

  /** What `hit` leaves behind: the rock itself, now dead, and the fragments it broke into. */
  datatype Shards = Shards(rock: Rock, fragments: seq<Rock>)

  /** Size classes ranked from small (0) to big (2). */
  function Rank(s: Size): nat
  {
    match s
    case Small => 0
    case Medium => 1
    case Big => 2
  }

  /** `getRadius` of each rock class. */
  function Radius(s: Size): (r: real)
    ensures SmallRockSize <= r <= BigRockSize
    ensures r == SmallRockSize <==> s == Small
    ensures r == BigRockSize <==> s == Big
  {
    match s
    case Big => BigRockSize
    case Medium => MediumRockSize
    case Small => SmallRockSize
  }

  /** `getSpin` of each rock class, in degrees per frame. */
  function Spin(s: Size): (d: int)
    ensures BigRockSpin <= d <= SmallRockSpin
    ensures d == BigRockSpin <==> s == Big
    ensures d == SmallRockSpin <==> s == Small
  {
    match s
    case Big => BigRockSpin
    case Medium => MediumRockSpin
    case Small => SmallRockSpin
  }

  /** Bigger rocks are wider and turn more slowly; every radius and spin is positive. */
  lemma SizeTable(s: Size, t: Size)
    ensures 0.0 < Radius(s) && 0 < Spin(s)
    ensures Rank(s) < Rank(t) ==> Radius(s) < Radius(t) && Spin(s) > Spin(t)
  {
  }

  /** `Rock(point, dx, dy)` for the class `size`: a new rock launched with the given velocity. */
  function Launched(size: Size, p: Point, v: Velocity): (r: Rock)
    ensures r.size == size && r.body.alive && r.rotation == 0
    ensures r.body.point == p && r.body.velocity == v
  {
    Rock(size, F.FlyingObject(p, v, true), 0)
  }

  /** `Rock(point, angle)` for the class `size`: a new rock heading along `angle` at the default speed. */
  function Launch(size: Size, trig: Trig, p: Point, angle: real): (r: Rock)
    ensures r == Launched(size, p, FromAngularSpeed(trig, angle, DefaultRockSpeed))
  {
    Rock(size, F.FlyingObject(p, FromAngularSpeed(trig, angle, DefaultRockSpeed), true), 0)
  }

  /**
   * `getFragments`: the rocks this one breaks into, all placed where it is,
   * with velocities derived from its own.
   */
  function Fragments(r: Rock): (fs: seq<Rock>)
    ensures forall i :: 0 <= i < |fs| ==> Rank(fs[i].size) < Rank(r.size)
    ensures forall i :: 0 <= i < |fs| ==> fs[i].body.point == r.body.point
    ensures forall i :: 0 <= i < |fs| ==> fs[i].body.alive && fs[i].rotation == 0
  {
    var p, v := r.body.point, r.body.velocity;
    match r.size
    case Big =>
      [ Launched(Medium, p, Velocity(v.dx, v.dy + 1.0)),
        Launched(Medium, p, Velocity(v.dx, v.dy - 1.0)),
        Launched(Small, p, Velocity(v.dx + 2.0, v.dy)) ]
    case Medium =>
      [ Launched(Small, p, Velocity(v.dx + 3.0, v.dy)),
        Launched(Small, p, Velocity(v.dx - 3.0, v.dy)) ]
    case Small => []
  }

  /** The exact, ordered fragment list of each rock class. */
  lemma FragmentTable(r: Rock)
    ensures var p, dx, dy := r.body.point, r.body.velocity.dx, r.body.velocity.dy;
      match r.size
      case Big =>
        Fragments(r) == [ Launched(Medium, p, Velocity(dx, dy + 1.0)),
                          Launched(Medium, p, Velocity(dx, dy - 1.0)),
                          Launched(Small, p, Velocity(dx + 2.0, dy)) ]
      case Medium =>
        Fragments(r) == [ Launched(Small, p, Velocity(dx + 3.0, dy)),
                          Launched(Small, p, Velocity(dx - 3.0, dy)) ]
      case Small => Fragments(r) == []
  {
  }

  /** `kill`, inherited unchanged from the base object. */
  function Kill(r: Rock): (k: Rock)
    ensures !k.body.alive
    ensures k == r.(body := k.body) && k.body.point == r.body.point && k.body.velocity == r.body.velocity
  {
    r.(body := F.Kill(r.body))
  }

  /**
   * `hit`: the rock dies and hands back its fragments. Hitting a rock that
   * is already dead still yields fragments; nothing in the source guards it.
   */
  function Hit(r: Rock): (h: Shards)
    ensures !h.rock.body.alive
    ensures h.rock == Kill(r)
    ensures h.fragments == Fragments(r)
  {
    var dead := Kill(r);
    Shards(dead, Fragments(dead))
  }

  /** Killing a rock does not change its fragments, so `hit` may take them before or after. */
  lemma FragmentsIgnoreAlive(r: Rock)
    ensures Fragments(Kill(r)) == Fragments(r)
  {
  }

  /**
   * How many rocks in all a rock turns into, itself included, if it and
   * every fragment are shot. The recursion is well founded only because
   * every fragment is strictly smaller than its parent.
   */
  function Debris(r: Rock): (n: nat)
    ensures 1 <= n
    decreases Rank(r.size)
  {
    var fs := Fragments(r);
    1 + SumDebris(fs, Rank(r.size))
  }

  function SumDebris(fs: seq<Rock>, bound: nat): (n: nat)
    requires forall i :: 0 <= i < |fs| ==> Rank(fs[i].size) < bound
    ensures |fs| <= n
    decreases bound, |fs|
  {
    if |fs| == 0 then 0 else Debris(fs[0]) + SumDebris(fs[1..], bound)
  }

  /** A big rock takes eight hits to clear, a medium one three, a small one one. */
  lemma DebrisCounts(r: Rock)
    ensures r.size == Big ==> Debris(r) == 8
    ensures r.size == Medium ==> Debris(r) == 3
    ensures r.size == Small ==> Debris(r) == 1
  {
    var fs := Fragments(r);
    match r.size
    case Big =>
      SmallDebris(fs[2]);
      MediumDebris(fs[1]);
      MediumDebris(fs[0]);
      assert SumDebris(fs[2..], 2) == 1 by {
        assert fs[2..][0] == fs[2] && fs[2..][1..] == [];
      }
      assert SumDebris(fs[1..], 2) == 4 by {
        assert fs[1..][0] == fs[1] && fs[1..][1..] == fs[2..];
      }
    case Medium =>
      MediumDebris(r);
    case Small =>
      SmallDebris(r);
  }

  lemma SmallDebris(r: Rock)
    requires r.size == Small
    ensures Debris(r) == 1
  {
    assert Fragments(r) == [];
  }

  lemma MediumDebris(r: Rock)
    requires r.size == Medium
    ensures Debris(r) == 3
  {
    var fs := Fragments(r);
    SmallDebris(fs[0]);
    SmallDebris(fs[1]);
    assert SumDebris(fs[1..], 1) == 1 by {
      assert fs[1..][0] == fs[1] && fs[1..][1..] == [];
    }
  }

  /** `advance`: the base motion rule, then the rotation moves on by the spin, modulo 360 as C++ computes it. */
  function Advance(r: Rock, bounds: F.Bounds): (a: Rock)
    ensures a.size == r.size
    ensures a.body == F.Advance(r.body, bounds)
    ensures -MaxDegrees < a.rotation < MaxDegrees
    ensures a.rotation % MaxDegrees == (r.rotation + Spin(r.size)) % MaxDegrees
    ensures 0 <= r.rotation ==> 0 <= a.rotation
    ensures a.rotation == CRem(r.rotation + Spin(r.size), MaxDegrees)
  {
    Rock(r.size, F.Advance(r.body, bounds), CRem(r.rotation + Spin(r.size), MaxDegrees))
  }

  /** `n` successive advances. */
  function AdvanceTimes(r: Rock, bounds: F.Bounds, n: nat): Rock
  {
    if n == 0 then r else Advance(AdvanceTimes(r, bounds, n - 1), bounds)
  }

  /**
   * A rock starting at rotation 0 has turned by exactly `n` spins after `n`
   * advances, reduced into [0, 360).
   */
  lemma {:induction false} RotationAfterAdvances(r: Rock, bounds: F.Bounds, n: nat)
    requires r.rotation == 0
    ensures AdvanceTimes(r, bounds, n).size == r.size
    ensures AdvanceTimes(r, bounds, n).rotation == (n * Spin(r.size)) % MaxDegrees
  {
    if n > 0 {
      RotationAfterAdvances(r, bounds, n - 1);
      var prev := AdvanceTimes(r, bounds, n - 1);
      var next := Advance(prev, bounds);
      var s := Spin(r.size);
      assert 0 <= prev.rotation < MaxDegrees;
      assert 0 <= next.rotation < MaxDegrees;
      ResidueInRange(next.rotation, MaxDegrees);
      ModAddCongruent((n - 1) * s, s, MaxDegrees);
      assert (n - 1) * s + s == n * s;
    }
  }
}

=== FILE: ships.dfy ===
/**
 * The player's ship (ship.cpp, ship.h): a flying object that turns in
 * steps of 6 degrees, thrusts along its heading, fires bullets and can be
 * made invulnerable for a number of frames.
 */
module Ships {
  import opened Geometry
  import opened CMath
  import F = FlyingObjects
  import Bullets

  /** `getRadius` of the ship. */
  const ShipSize: real := 10.0
  const RotateAmount: int := 6
  const ThrustAmount: real := 0.5
  /** `STARTING_ROTATION`, defined as `ROTATION_DRAW_OFFSET`, which is 90. */
  const StartingRotation: int := 90
  const MaxDegrees: int := 360

  datatype Ship = Ship(
    body: F.FlyingObject,
    rotation: int,
    invulnerableTimer: int,
    thrusted: bool,
    drawThrust: bool,
    invulnerable: bool)

  /** The flag and the countdown agree: the ship is invulnerable exactly while time is left. */
  predicate Valid(s: Ship)
  {
    0 <= s.invulnerableTimer && (s.invulnerable <==> 0 < s.invulnerableTimer)
  }

  /** A default-constructed ship: alive, pointing up (90 degrees), vulnerable, not thrusting. */
  function New(): (s: Ship)
    ensures Valid(s) && s.body.alive
    ensures s.rotation == StartingRotation && s.invulnerableTimer == 0 && !s.invulnerable
    ensures !s.thrusted && !s.drawThrust
    ensures s.body == F.New()
  {
    Ship(F.New(), StartingRotation, 0, false, false, false)
  }

  /**
   * `setInvulnerable(n)`: a negative duration counts as zero; the flag is
   * the countdown converted to bool, so it is set exactly when time is left.
   */
  function SetInvulnerable(s: Ship, n: int): (r: Ship)
    ensures Valid(r)
    ensures r.invulnerableTimer == if n < 0 then 0 else n
    ensures r.invulnerable <==> 0 < n
    ensures r == s.(invulnerableTimer := r.invulnerableTimer, invulnerable := r.invulnerable)
  {
    var timer := if n < 0 then 0 else n;
    s.(invulnerableTimer := timer, invulnerable := timer != 0)
  }

  /**
   * `advance`: the base motion rule; an invulnerable ship's countdown goes
   * down by one and, on reaching zero, the invulnerability ends; the thrust
   * of the frame just finished becomes what the next draw shows.
   */
  function Advance(s: Ship, bounds: F.Bounds): (r: Ship)
    ensures r.body == F.Advance(s.body, bounds)
    ensures r.rotation == s.rotation
    ensures r.drawThrust == s.thrusted && !r.thrusted
    ensures Valid(s) ==> Valid(r)
    ensures Valid(s) ==> r.invulnerableTimer == if 0 < s.invulnerableTimer then s.invulnerableTimer - 1 else 0
  {
    var body := F.Advance(s.body, bounds);
    var timer, inv :=
      if s.invulnerable then
        (if s.invulnerableTimer - 1 <= 0 then 0 else s.invulnerableTimer - 1)
      else s.invulnerableTimer,
      if s.invulnerable then s.invulnerableTimer - 1 > 0 else s.invulnerable;
    Ship(body, s.rotation, timer, false, s.thrusted, inv)
  }

  /** `n` successive advances. */
  function AdvanceTimes(s: Ship, bounds: F.Bounds, n: nat): Ship
  {
    if n == 0 then s else Advance(AdvanceTimes(s, bounds, n - 1), bounds)
  }

  /**
   * After `setInvulnerable(n)` with `n > 0` the ship stays invulnerable
   * through `n - 1` advances, with the countdown at `n - k` after `k` of
   * them, and is vulnerable again after the `n`-th.
   */
  lemma {:induction false} InvulnerabilityWindow(s: Ship, bounds: F.Bounds, n: int, k: nat)
    requires 0 < n
    ensures var a := AdvanceTimes(SetInvulnerable(s, n), bounds, k);
      && Valid(a)
      && (k <= n ==> a.invulnerableTimer == n - k)
      && (k < n ==> a.invulnerable)
      && (n <= k ==> !a.invulnerable)
  {
    if k > 0 {
      InvulnerabilityWindow(s, bounds, n, k - 1);
    }
  }

  /** `kill`: does nothing while the ship is invulnerable, otherwise the base kill. */
  function Kill(s: Ship): (r: Ship)
    ensures s.invulnerable ==> r == s
    ensures !s.invulnerable ==> !r.body.alive && r == s.(body := F.Kill(s.body))
  {
    if s.invulnerable then s else s.(body := F.Kill(s.body))
  }

  /** Once the invulnerability window has run out, a kill succeeds. */
  lemma KillAfterWindow(s: Ship, bounds: F.Bounds, n: int)
    requires 0 < n
    ensures !Kill(AdvanceTimes(SetInvulnerable(s, n), bounds, n)).body.alive
  {
    InvulnerabilityWindow(s, bounds, n, n);
  }

  /** The heading the rotation stands for, as an angle in [0, 360). */
  function Heading(s: Ship): (h: int)
    ensures 0 <= h < MaxDegrees
  {
    s.rotation % MaxDegrees
  }

  /** `rotateLeft`: turn counter-clockwise by 6 degrees, reduced with the C++ remainder. */
  function RotateLeft(s: Ship): (r: Ship)
    ensures r.rotation == CRem(s.rotation + RotateAmount, MaxDegrees)
    ensures -MaxDegrees < r.rotation < MaxDegrees
    ensures Heading(r) == (Heading(s) + RotateAmount) % MaxDegrees
    ensures r == s.(rotation := r.rotation)
  {
    var r := s.(rotation := CRem(s.rotation + RotateAmount, MaxDegrees));
    ModAddCongruent(s.rotation, RotateAmount, MaxDegrees);
    r
  }

  /**
   * `rotateRight`: turn clockwise by 6 degrees, reduced with the C++
   * remainder, so the rotation itself can become negative.
   */
  function RotateRight(s: Ship): (r: Ship)
    ensures r.rotation == CRem(s.rotation - RotateAmount, MaxDegrees)
    ensures -MaxDegrees < r.rotation < MaxDegrees
    ensures Heading(r) == (Heading(s) - RotateAmount) % MaxDegrees
    ensures r == s.(rotation := r.rotation)
  {
    var r := s.(rotation := CRem(s.rotation - RotateAmount, MaxDegrees));
    ModAddCongruent(s.rotation, -RotateAmount, MaxDegrees);
    r
  }

  /** Turning left and then right, or right and then left, restores the heading. */
  lemma TurnsCancel(s: Ship)
    ensures Heading(RotateRight(RotateLeft(s))) == Heading(s)
    ensures Heading(RotateLeft(RotateRight(s))) == Heading(s)
  {
    var h := Heading(s);
    ModAddCongruent(h + RotateAmount, -RotateAmount, MaxDegrees);
    ModAddCongruent(h - RotateAmount, RotateAmount, MaxDegrees);
    ResidueInRange(h, MaxDegrees);
  }

  /** Turning right from rotation 0 gives -6, not 354: the C++ remainder keeps the dividend's sign. */
  lemma RotationCanGoNegative()
    ensures RotateRight(New().(rotation := 0)).rotation == -RotateAmount
  {
  }

  /** `thrust`: add speed 0.5 along the current rotation and remember that thrust was applied. */
  function Thrust(s: Ship, trig: Trig): (r: Ship)
    ensures r.body == F.Accelerate(s.body, FromAngularSpeed(trig, s.rotation as real, ThrustAmount))
    ensures r.thrusted
    ensures r == s.(body := r.body, thrusted := true)
  {
    s.(body := F.Accelerate(s.body, FromAngularSpeed(trig, s.rotation as real, ThrustAmount)),
       thrusted := true)
  }

  /** Thrust shows up on the draw after the next advance, and is gone again after the one after. */
  lemma ThrustIsDrawnOnce(s: Ship, trig: Trig, bounds: F.Bounds)
    ensures Advance(Thrust(s, trig), bounds).drawThrust
    ensures !Advance(Advance(Thrust(s, trig), bounds), bounds).drawThrust
  {
  }

  /**
   * `fire`: a new bullet leaving the ship's position along its rotation at
   * bullet speed, carrying the ship's own velocity on top.
   */
  function Fire(s: Ship, trig: Trig): (b: Bullets.Bullet)
    ensures b.body.point == s.body.point && b.body.alive
    ensures b.body.velocity == Plus(FromAngularSpeed(trig, s.rotation as real, Bullets.BulletSpeed), s.body.velocity)
    ensures b.life == Bullets.BulletLife
  {
    var b := Bullets.Fire(Bullets.New(), trig, s.body.point, s.rotation as real);
    b.(body := F.Accelerate(b.body, s.body.velocity))
  }
}

=== FILE: sieve.dfy ===
/**
 * Removing dead entries from a list while walking it, as
 * `cleanupBullets` and `cleanupRocks` do (game.cpp): a live entry is
 * stepped over, a dead one is erased and the walk continues with the
 * entry that followed it.
 */
module Sieve {

  /** The entries of `s` that `keep` accepts, in their original order. */
  function Filter<T(!new)>(s: seq<T>, keep: T -> bool): (r: seq<T>)
    ensures |r| <= |s|
    ensures forall i :: 0 <= i < |r| ==> keep(r[i])
  {
    if |s| == 0 then []
    else if keep(s[0]) then [s[0]] + Filter(s[1..], keep)
    else Filter(s[1..], keep)
  }

  /** Filtering a concatenation filters each part: survivors keep their relative order. */
  lemma {:induction false} FilterAppend<T(!new)>(a: seq<T>, b: seq<T>, keep: T -> bool)
    ensures Filter(a + b, keep) == Filter(a, keep) + Filter(b, keep)
  {
    if |a| == 0 {
      assert a + b == b;
    } else {
      assert (a + b)[1..] == a[1..] + b;
      FilterAppend(a[1..], b, keep);
    }
  }

  /** Nothing is removed from a list whose entries are all kept. */
  lemma {:induction false} FilterKeepsAll<T(!new)>(s: seq<T>, keep: T -> bool)
    requires forall i :: 0 <= i < |s| ==> keep(s[i])
    ensures Filter(s, keep) == s
  {
    if |s| > 0 {
      FilterKeepsAll(s[1..], keep);
    }
  }

  /** The list shrinks exactly when some entry is dropped. */
  lemma {:induction false} FilterShrinks<T(!new)>(s: seq<T>, keep: T -> bool)
    ensures |Filter(s, keep)| == |s| <==> forall i :: 0 <= i < |s| ==> keep(s[i])
  {
    if |s| > 0 {
      FilterShrinks(s[1..], keep);
      assert forall i :: 0 < i < |s| ==> s[1..][i - 1] == s[i];
    }
  }

  /** Each value survives as many times as it occurs, if it is kept, and not at all otherwise. */
  lemma {:induction false} FilterCounts<T(!new)>(s: seq<T>, keep: T -> bool, x: T)
    ensures multiset(Filter(s, keep))[x] == if keep(x) then multiset(s)[x] else 0
  {
    if |s| > 0 {
      FilterCounts(s[1..], keep, x);
      assert s == [s[0]] + s[1..];
    }
  }

  /** A value survives exactly when it occurs in the list and is kept. */
  lemma FilterMembers<T(!new)>(s: seq<T>, keep: T -> bool)
    ensures forall x :: x in Filter(s, keep) <==> x in s && keep(x)
  {
    forall x
      ensures x in Filter(s, keep) <==> x in s && keep(x)
    {
      FilterCounts(s, keep, x);
      assert x in Filter(s, keep) <==> x in multiset(Filter(s, keep));
      assert x in s <==> x in multiset(s);
    }
  }

  /** Stepping over a kept entry moves it from the unfiltered tail to the checked prefix. */
  lemma StepOver<T(!new)>(l: seq<T>, i: nat, keep: T -> bool)
    requires i < |l| && keep(l[i])
    ensures l[..i + 1] + Filter(l[i + 1..], keep) == l[..i] + Filter(l[i..], keep)
  {
    assert l[i..][0] == l[i] && l[i..][1..] == l[i + 1..];
    assert l[..i + 1] == l[..i] + [l[i]];
  }

  /** Erasing a dropped entry leaves the checked prefix and the filtered tail as they were. */
  lemma EraseAt<T(!new)>(l: seq<T>, i: nat, keep: T -> bool)
    requires i < |l| && !keep(l[i])
    ensures var m := l[..i] + l[i + 1..];
      m[..i] + Filter(m[i..], keep) == l[..i] + Filter(l[i..], keep)
  {
    var m := l[..i] + l[i + 1..];
    assert l[i..] == [l[i]] + l[i + 1..];
    assert m[..i] == l[..i];
    assert m[i..] == l[i + 1..];
  }

  /**
   * The erase loop itself: `i` walks the list, a live entry is stepped
   * over and a dead one is erased in place.
   */
  method EraseDead<T(!new)>(s: seq<T>, keep: T -> bool) returns (l: seq<T>)
    ensures l == Filter(s, keep)
  {
    l := s;
    var i := 0;
    while i < |l|
      invariant 0 <= i <= |l|
      invariant l[..i] + Filter(l[i..], keep) == Filter(s, keep)
      decreases |l| - i
    {
      if keep(l[i]) {
        StepOver(l, i, keep);
        i := i + 1;
      } else {
        EraseAt(l, i, keep);
        l := l[..i] + l[i + 1..];
      }
    }
    assert l[i..] == [];
    assert l[..i] == l;
  }
}

=== FILE: sweep.dfy ===
/**
 * `Game::getClosestDistance` (game.cpp): how close two objects came during
 * the frame that just moved them. Both are walked back along their
 * velocities in whole steps, from where they are now (step 0) towards
 * where they were, and the smallest distance seen is kept. The step count
 * is the largest velocity component, never less than 0.1, so there is
 * always at least one sample.
 */
module Sweep {
  import opened Geometry
  import F = FlyingObjects

  /** `std::numeric_limits<float>::max()`, the starting value of the running minimum. */
  const FltMax: real := 340282346638528859811704183484516925440.0

  /** The floor on the sweep length that keeps two still objects sampled once. */
  const MinSweep: real := 0.1

  function Abs(x: real): real
  {
    if x < 0.0 then -x else x
  }

  /** `std::max`. */
  function Max(a: real, b: real): real
  {
    if a < b then b else a
  }

  /** `std::min`. */
  function Min(a: real, b: real): real
  {
    if b < a then b else a
  }

  /** `dMax`: the largest velocity component of either object, at least 0.1. */
  function SweepLength(v1: Velocity, v2: Velocity): (d: real)
    ensures MinSweep <= d
    ensures Abs(v1.dx) <= d && Abs(v1.dy) <= d && Abs(v2.dx) <= d && Abs(v2.dy) <= d
    ensures d == MinSweep || d == Abs(v1.dx) || d == Abs(v1.dy) || d == Abs(v2.dx) || d == Abs(v2.dy)
  {
    Max(Max(Max(Max(Abs(v1.dx), Abs(v1.dy)), Abs(v2.dx)), Abs(v2.dy)), MinSweep)
  }

  /** The index of the last sample: the loop runs while `i <= dMax`. */
  function LastStep(d: real): (n: nat)
    requires MinSweep <= d
    ensures (n as real) <= d < (n + 1) as real
  {
    d.Floor
  }

  /** Where an object was `i` steps of `1/d` of its velocity back. */
  function Retreat(o: F.FlyingObject, i: nat, d: real): (p: Point)
    requires 0.0 < d
    ensures i == 0 ==> p == o.point
    ensures (i as real) == d ==> Move(p, o.velocity) == o.point
  {
    Point(o.point.x - o.velocity.dx * (i as real) / d, o.point.y - o.velocity.dy * (i as real) / d)
  }

  /**
   * The samples are evenly spaced: each step back from sample `i - 1` to
   * sample `i` takes off exactly `1/d` of the velocity, so `d` steps span
   * one whole frame.
   */
  lemma RetreatSteps(o: F.FlyingObject, i: nat, d: real)
    requires 0.0 < d && 0 < i
    ensures var q := Retreat(o, i - 1, d);
      Retreat(o, i, d) == Point(q.x - o.velocity.dx / d, q.y - o.velocity.dy / d)
  {
  }

  /** The distance between the two objects at sample `i`. */
  function Sample(o1: F.FlyingObject, o2: F.FlyingObject, dist: Metric, d: real, i: nat): (s: real)
    requires 0.0 < d
    ensures i == 0 ==> s == dist(o1.point, o2.point)
  {
    dist(Retreat(o1, i, d), Retreat(o2, i, d))
  }

  /** `m` is the distance seen at one of samples 0 through `n`. */
  ghost predicate Attained(o1: F.FlyingObject, o2: F.FlyingObject, dist: Metric, d: real, n: nat, m: real)
    requires 0.0 < d
  {
    exists i :: 0 <= i <= n && m == Sample(o1, o2, dist, d, i)
  }

  /** The running minimum after samples 0 through `n`, starting from FLT_MAX. */
  function MinSample(o1: F.FlyingObject, o2: F.FlyingObject, dist: Metric, d: real, n: nat): (m: real)
    requires 0.0 < d
    ensures m <= FltMax
    ensures forall i :: 0 <= i <= n ==> m <= Sample(o1, o2, dist, d, i)
    ensures m == FltMax || Attained(o1, o2, dist, d, n, m)
  {
    if n == 0 then Min(FltMax, Sample(o1, o2, dist, d, 0))
    else Min(MinSample(o1, o2, dist, d, n - 1), Sample(o1, o2, dist, d, n))
  }

  /** The closest approach of the two objects over the frame, as the source estimates it. */
  function ClosestDistance(o1: F.FlyingObject, o2: F.FlyingObject, dist: Metric): (m: real)
    ensures m <= dist(o1.point, o2.point)
    ensures m <= FltMax
  {
    var d := SweepLength(o1.velocity, o2.velocity);
    var m := MinSample(o1, o2, dist, d, LastStep(d));
    assert m <= Sample(o1, o2, dist, d, 0);
    m
  }

  /**
   * A collision in the middle of the frame is caught even when the objects
   * end the frame far apart: any sample that comes within `reach` brings
   * the closest distance within it too.
   */
  lemma SweptContactIsSeen(o1: F.FlyingObject, o2: F.FlyingObject, dist: Metric, reach: real, i: nat)
    requires var d := SweepLength(o1.velocity, o2.velocity);
      i <= LastStep(d) && Sample(o1, o2, dist, d, i) <= reach
    ensures ClosestDistance(o1, o2, dist) <= reach
  {
  }

  /**
   * `getClosestDistance` as the loop it is written as. The counter is a
   * float in game.cpp; it only ever holds whole numbers, so it is a `nat`
   * here.
   */
  method GetClosestDistance(o1: F.FlyingObject, o2: F.FlyingObject, dist: Metric) returns (distMin: real)
    ensures distMin == ClosestDistance(o1, o2, dist)
    ensures distMin <= dist(o1.point, o2.point)
    ensures var d := SweepLength(o1.velocity, o2.velocity);
      distMin == FltMax || Attained(o1, o2, dist, d, LastStep(d), distMin)
  {
    var dMax := Max(Abs(o1.velocity.dx), Abs(o1.velocity.dy));
    dMax := Max(dMax, Abs(o2.velocity.dx));
    dMax := Max(dMax, Abs(o2.velocity.dy));
    dMax := Max(dMax, MinSweep);
    assert dMax == SweepLength(o1.velocity, o2.velocity);

    distMin := FltMax;
    var i: nat := 0;
    while (i as real) <= dMax
      invariant i <= LastStep(dMax) + 1
      invariant i == 0 ==> distMin == FltMax
      invariant 0 < i ==> distMin == MinSample(o1, o2, dist, dMax, i - 1)
      decreases LastStep(dMax) + 1 - i
    {
      var point1 := Retreat(o1, i, dMax);
      var point2 := Retreat(o2, i, dMax);
      distMin := Min(distMin, dist(point1, point2));
      i := i + 1;
    }
    assert i == LastStep(dMax) + 1;
  }
}
